=== FILE: README.md ===
# Rick and Morty character browser: the client-side logic in Dafny

This project models the logic the browser client runs on top of the remote
character catalogue. The catalogue itself is fetched over GraphQL and is an
input here. The model covers:

- **The overlay store** (`Overlay`, `Persistence`, `DraftStore`). Favourites,
  hidden characters and per-character comment threads live in local storage.
  Each of the five reducers is a pure `prev => next` function, and the store is
  saved in full after every change. `DraftStore` is the earlier copy of the
  store in `src/context/user-interactions.tsx`. It has the same reducers minus
  `editComment`, and a literal storage key.
- **The view pipeline** (`Catalog`, `Collation`, `Sorting`, `Processing`).
  Null and hidden entries are dropped, and the list is optionally sorted by
  name. The sort is stable. The result is split into starred and other
  characters.
- **The character list** (`CharacterList`). It reads the URL query, counts the
  active filters, applies the starred/others group filter, and decides among
  error banner, skeleton, "0 Results", "No characters found" and the list.
- **URL query transitions** (`Params`, `Search`, `FilterModal`, `FilterBar`).
  The debounced search term is kept in step with the `name` parameter, and
  the filter fields can be applied and cleared. The filter modal stays
  mounted, hidden while closed, unless the list shows its error banner
  instead; so its choices outlive closing and reopening and are read from
  the URL again only when it remounts (after the error banner, a reload, or
  leaving the list).
- **Comments and the welcome modal** (`Text`, `CommentsSection`,
  `WelcomeModal`). The comments section guards every store call with
  trimmed-text checks. The welcome modal remembers its dismissal in storage.

Design decisions:

- The provider stores the hidden list as `hiddenCharacters`. The shared
  context type and the character list call it `deletedCharacters`. The model
  keeps a single list `hidden`, and the list component reads that list. The
  mismatch itself is modelled as the first finding below.
- A `sort` value other than `asc` or `desc` still triggers a sort, but with a
  comparator that always returns 0. `Sorting.UnorderedKeepsOrder` proves that
  such a sort keeps the catalogue order. So a "default" sort preserves the
  original order, as intended.
- `src/hooks/use-user-interactions.ts:4-12` repeats the draft's context guard
  word for word. Both are modelled by `DraftStore.UseUserInteractions`.
- The filter bar's debounced `name` commit (`filter-bar.tsx:23-37`) is the
  search hook's commit, and reuses `Search.CommitName`.

The search hook, the filter bar, the filter modal and the welcome modal are
modelled as small state machines over events:

- a keystroke;
- the debounce window elapsing (`QuietPeriod` / `Quiet`);
- an outside URL change (`Navigate`);
- a button.

Each effect runs after the render in which its dependencies changed. The
commit effect's functional update is applied to the current parameters.

## Model

| member | source | states |
|---|---|---|
| Overlay.ToggleFavorite | src/context/user-interactions-provider.tsx:42-49 | the id's membership flips: an absent id is appended at the end, a present one is removed and the list shrinks; every other id keeps its membership; hidden list and comments untouched |
| Overlay.WithoutAppend | src/context/user-interactions-provider.tsx:45-46 | removing an id distributes over concatenation, so the favourites left keep their order |
| Overlay.ToggleTwice | src/context/user-interactions-provider.test.tsx:35-49 | toggling twice restores favourite membership, and restores the exact state when the id was not a favourite |
| Overlay.ToggleRemoveKeepsOrder | src/context/user-interactions-provider.tsx:45-46 | removing a favourite is the filter of each part of any split of the list, so the remaining order is kept |
| Overlay.HideCharacter | src/context/user-interactions-provider.tsx:51-56 | the id is appended at the end of the hidden list, all earlier entries kept; favourites and comments untouched |
| Overlay.HideIdempotent | src/context/user-interactions-provider.test.tsx:51-59 | hiding twice hides the same set of ids as hiding once |
| Overlay.AddComment | src/context/user-interactions-provider.tsx:58-72 | the thread (created if absent) grows by exactly one comment at its end with the given text, fresh id and timestamp; other threads and fields unchanged; the set of all comment ids gains exactly the new id |
| Overlay.EditComment | src/context/user-interactions-provider.tsx:88-102 | same thread length and order, ids and timestamps kept, text replaced exactly on matching ids; an unknown id leaves the thread as it was (an absent one becomes empty); other threads unchanged |
| Overlay.DeleteComment | src/context/user-interactions-provider.tsx:74-86 | the thread keeps exactly the comments with another id; with unique ids and the id present it shrinks by one; other threads unchanged |
| Overlay.DropCommentAppend | src/context/user-interactions-provider.tsx:81 | deleting a comment distributes over concatenation, so the comments left keep their order |
| Overlay.DropCommentRemovesOne | src/context/user-interactions-provider.tsx:81 | filtering a thread with distinct ids by one of its ids removes exactly one comment |
| Overlay.AddEditDelete | src/context/user-interactions-provider.test.tsx:61-87 | add then read back, edit in place, delete: the thread is `[c]`, then `[c with new text]`, then empty |
| Overlay.Reduce | src/context/user-interactions-provider.tsx:104-121 | each context action touches only its own field, and no action breaks comment-id uniqueness |
| Persistence.Load | src/context/user-interactions-provider.tsx:29-36 | an absent or empty entry, or one that does not parse, gives the empty store; a non-empty entry that parses gives exactly the parsed value |
| Persistence.Save | src/context/user-interactions-provider.tsx:38-40 | the whole state is stored under the key; every other key is untouched |
| Persistence.LoadSave | src/context/user-interactions-provider.tsx:29-40 | for an inverse encode/decode pair, loading what was saved gives it back |
| Persistence.Start | src/context/user-interactions-provider.tsx:29-40 | after mounting, the state is what `Load` reads from the stored entry, storage holds its encoding, and no other key changes |
| Persistence.Step | src/context/user-interactions-provider.tsx:38-40 | the new state is the reducer's result; storage holds its encoding, no other key changes, and comment-id uniqueness is kept |
| Persistence.ReloadAfterStep | src/context/user-interactions-provider.tsx:29-40 | read-after-write: reloading after any step returns the current state |
| Persistence.CorruptEntryIsReset | src/context/user-interactions-provider.tsx:33-35 | an entry that does not parse gives the empty store, which then overwrites the entry |
| DraftStore.Load | src/context/user-interactions.tsx:48-55 | under the literal key `rick-morty-user-interactions`: an absent, empty or unparsable entry gives the empty store, a parsable one exactly its parsed value |
| DraftStore.Reduce | src/context/user-interactions.tsx:61-102 | the draft's four reducers (no edit) have the same per-action effects as the provider's |
| DraftStore.UseUserInteractions | src/context/user-interactions.tsx:119-127 | outside a provider the hook fails with the source's message; inside, it returns the context |
| Text.Trim | src/features/characters/components/comments-section.tsx:21-22 | the result is a slice of the input with only white space cut from both ends, and it neither starts nor ends with white space |
| Text.TrimEmptyIff | src/features/characters/components/comments-section.tsx:21 | trimming gives the empty string exactly when the input is all white space |
| Text.TrimIdempotent | src/features/characters/components/comments-section.tsx:22 | trimming twice is trimming once |
| Collation.LtIrreflexive | src/features/characters/hooks/use-character-processing.ts:31 | no name compares strictly before itself |
| Collation.LtAsymmetric | src/features/characters/hooks/use-character-processing.ts:31-33 | two names never compare strictly before each other |
| Collation.LtTransitive | src/features/characters/hooks/use-character-processing.ts:31-33 | the name order is transitive |
| Collation.LtTotal | src/features/characters/hooks/use-character-processing.ts:31-33 | any two names are equal or ordered one way |
| Sorting.TieIffSameKey | src/features/characters/hooks/use-character-processing.ts:29-35 | the comparator returns 0 exactly on equal names (on every pair for a non-asc/desc sort) |
| Sorting.BeforeTransitive | src/features/characters/hooks/use-character-processing.ts:29-35 | the comparator is transitive for both orders |
| Sorting.Insert | src/features/characters/hooks/use-character-processing.ts:29-35 | inserting into a sorted list gives a sorted permutation with the element added |
| Sorting.Sort | src/features/characters/hooks/use-character-processing.ts:28-36 | the result is a permutation of the input that is sorted under the comparator |
| Sorting.SortStable | src/features/characters/hooks/use-character-processing.ts:28-36 | stability: for every name, the characters with that name come out in input order |
| Sorting.UnorderedKeepsOrder | src/features/characters/hooks/use-character-processing.ts:34 | a comparator that always returns 0 leaves the list exactly as it was |
| Sorting.AscNonDecreasing | src/features/characters/hooks/use-character-processing.ts:30-31 | ascending output is non-decreasing by `name \|\| ""` |
| Sorting.DescNonIncreasing | src/features/characters/hooks/use-character-processing.ts:32-33 | descending output is non-increasing by `name \|\| ""` |
| Processing.VisibleMembers | src/features/characters/hooks/use-character-processing.ts:20-24 | the filter keeps exactly the non-null entries whose `id \|\| ""` is not hidden |
| Processing.VisibleAppend | src/features/characters/hooks/use-character-processing.ts:20-24 | the filter keeps input order: it distributes over concatenation |
| Processing.FilteredCharacters | src/features/characters/hooks/use-character-processing.ts:19-40 | a permutation of the visible entries; unchanged without a truthy sort; otherwise sorted, stable for every name, and unchanged for a non-asc/desc value |
| Processing.Partition | src/features/characters/hooks/use-character-processing.ts:42-57 | entries without an id are dropped; starred holds exactly the favourites, others exactly the rest; together they hold every entry with an id |
| Processing.PartitionAppend | src/features/characters/hooks/use-character-processing.ts:47-54 | both groups keep the filtered order: partitioning distributes over concatenation |
| Processing.UseCharacterProcessing | src/features/characters/hooks/use-character-processing.ts:19-59 | the filtered list holds exactly the visible catalogue entries, and the groups split those with an id by favourite membership |
| Processing.HiddenNeverShown | src/features/characters/hooks/use-character-processing.ts:23 | a hidden character is in neither the filtered list nor either group |
| Processing.StableSortExample | src/features/characters/hooks/use-character-processing.ts:26-36 | names b, a, a sorted ascending come out as ids 2, 3, 1 |
| Processing.PartitionExample | src/features/characters/hooks/use-character-processing.ts:19-57 | catalogue 1-4, hidden 3, favourite 2, no sort: starred [2], others [1, 4] |
| CharacterList.Field | src/features/characters/components/character-list.tsx:29-32 | a field is present exactly when its key holds a non-empty value |
| CharacterList.ReadQuery | src/features/characters/components/character-list.tsx:29-34 | name, status, species and gender are present exactly when set non-empty, with the URL's value; the group filter is the URL's value, or `all` exactly when absent, empty or `all`; the sort is the raw value |
| CharacterList.ActiveFiltersCount | src/features/characters/components/character-list.tsx:44-49 | at most 4; zero exactly when status, species, gender and a non-default group filter are all unset; positive implies active filters |
| CharacterList.CountFieldAddsOne | src/features/characters/components/character-list.tsx:44-49 | setting one of status, species, gender from unset to a non-empty value raises the badge count by exactly one |
| CharacterList.CountGroupFilterAddsOne | src/features/characters/components/character-list.tsx:44-49 | choosing a group filter other than `all` where there was none raises the badge count by exactly one |
| CharacterList.CountTwoFilters | src/features/characters/components/character-list.tsx:44-49 | status and species set give a count of 2 |
| CharacterList.HasActiveFiltersIff | src/features/characters/components/character-list.tsx:36-42 | filters are active exactly when the group filter is not `all` or one of status, species, gender, sort, name is non-empty |
| CharacterList.CountIgnoresNameAndSort | src/features/characters/components/character-list.tsx:44-49 | changing the name or the sort never changes the filter count |
| CharacterList.Results | src/features/characters/components/character-list.tsx:77-79 | `starred` selects the starred group, `others` the other group, and any other value the whole filtered list |
| CharacterList.DisplayGroups | src/features/characters/components/character-list.tsx:81-86 | starred holds exactly the results whose id is a favourite, others exactly the rest, and the sizes add up |
| CharacterList.DisplayGroupsAppend | src/features/characters/components/character-list.tsx:81-86 | both displayed groups keep the order of `results`: the split distributes over concatenation |
| CharacterList.DisplayMatchesPartition | src/features/characters/components/character-list.tsx:81-86 | on characters that all have an id, the display split equals the processing hook's starred/others split, order included |
| CharacterList.GroupFilterExclusive | src/features/characters/components/character-list.tsx:77-86 | under `starred` the display is the starred group alone and under `others` the other group alone |
| CharacterList.Decide | src/features/characters/components/character-list.tsx:88-157 | one condition per outcome: error banner iff error; skeleton iff loading with no data or no results; "0 Results" iff settled, empty and filtered; "No characters found" iff settled, empty and unfiltered; otherwise the count and filter header |
| CharacterList.Render | src/features/characters/components/character-list.tsx:66-157 | the screen state is the decision on the chosen results; the starred group shown holds exactly the chosen results with a favourite id, the other group exactly the rest, and their sizes add up |
| CharacterList.HiddenNeverListed | src/features/characters/components/character-list.tsx:66-86 | a hidden character is never displayed, whatever the query |
| CharacterList.ContextList | src/context/user-interactions-provider.tsx:104-112 | the context value carries the hidden list under `hiddenCharacters`; `deletedCharacters` reads as undefined |
| CharacterList.VisibleAsWritten | src/features/characters/hooks/use-character-processing.ts:21-23 | with an undefined list the filter throws exactly when some entry is non-null |
| CharacterList.DeletedCharactersThrows | src/features/characters/components/character-list.tsx:19 | after hiding character 3, the component as written throws where the intended pipeline leaves 3 out |
| Params.GetOr | src/features/characters/hooks/use-character-search.ts:7 | `get(key) \|\| fallback`: the fallback unless the key holds a non-empty value |
| Params.SetOrDelete | src/features/characters/components/filter-modal.tsx:24-25 | a non-empty value is set, an empty one deletes the key; other keys unchanged |
| Params.Delete | src/features/characters/components/filter-modal.tsx:39 | the key is gone; other keys unchanged |
| Search.SyncFromUrl | src/features/characters/hooks/use-character-search.ts:11-15 | the term becomes the URL name (or ""), and stays put when already equal |
| Search.CommitName | src/features/characters/hooks/use-character-search.ts:18-32 | writes iff the debounced term differs from the URL name; then the URL name equals the term (set, or deleted for ""), `page` is gone, other keys unchanged |
| Search.CommitSettles | src/features/characters/hooks/use-character-search.ts:19-20 | after a write, re-running the commit on the new parameters writes nothing |
| Search.Mount | src/features/characters/hooks/use-character-search.ts:7-8 | the term and debounced term start as the URL name |
| Search.CommitEffect | src/features/characters/hooks/use-character-search.ts:18-32 | afterwards the URL name equals the debounced term, with one write exactly when they differed |
| Search.Coalescing | src/features/characters/hooks/use-character-search.ts:8 | a burst of keystrokes and one quiet period writes the URL at most once, leaving the last keystroke as `name` and other keys (but `page`) unchanged |
| Search.Step | src/features/characters/hooks/use-character-search.ts:10-32 | a keystroke changes only the term; a quiet period commits the term as `name`; an outside URL change keeps the other keys navigated to, but leaves `name` and the term at the debounced term, writing once when they differ |
| Search.NavigationReverted | src/features/characters/hooks/use-character-search.ts:32 | as written, navigating from `name=rick` to an empty query puts `name=rick` back |
| Search.StepIntended | src/features/characters/hooks/use-character-search.ts:10-32 | with the commit tied to the debounced term only, an outside URL change is kept as is and only flows into the term |
| FilterModal.Init | src/features/characters/components/filter-modal.tsx:13-19 | each choice reads its parameter with `""` (or `all` for the group filter) as default |
| FilterModal.Apply | src/features/characters/components/filter-modal.tsx:21-42 | each choice set or deleted, `filter` deleted for `all` or "", `page` deleted, every other key (`name` included) unchanged |
| FilterModal.Clear | src/features/characters/components/filter-modal.tsx:44-53 | exactly the five filter keys are deleted; `name` and `page` kept |
| FilterModal.ApplyThenInit | src/features/characters/components/filter-modal.tsx:13-42 | round trip: a modal mounted afresh on the applied URL shows the applied choices |
| FilterModal.InitThenApply | src/features/characters/components/filter-modal.tsx:13-42 | applying the choices read from a URL changes only `page` and empty or `all` filter values |
| FilterModal.ClearResets | src/features/characters/components/filter-modal.tsx:44-53 | a modal mounted afresh on the cleared URL shows the defaults; clearing twice is clearing once |
| FilterModal.Mount | src/features/characters/components/filter-modal.tsx:12-19 | the modal mounts closed, with its choices read from the URL |
| FilterModal.Step | src/features/characters/components/filter-modal.tsx:10-55 | only the controls, while open, and a remount after the error banner change the choices; opening, closing, "Clear" and outside URL changes keep them; a remount re-reads them from the URL; "Apply" and "Clear" write their URL and close |
| FilterModal.StepIntended | src/features/characters/components/filter-modal.tsx:44-53 | as `Step`, but "Clear" also resets the choices to the defaults |
| FilterModal.ApplySyncs | src/features/characters/components/filter-modal.tsx:13-42 | a fresh mount shows what the URL says, and "Apply" or a remount makes the choices and the URL agree again |
| FilterModal.ClearShowsStaleChoice | src/features/characters/components/filter-modal.tsx:44-53 | as written: apply status `alive`, reopen, clear, reopen: the URL has no status but the modal shows `alive`, and "Apply" writes it back |
| FilterModal.IntendedClearThenApply | src/features/characters/components/filter-modal.tsx:44-53 | with the reset, the modal agrees with the cleared URL, and a following "Apply" writes no filter key back |
| FilterBar.Mount | src/features/characters/components/filter-bar.tsx:9-16 | term and choices read from the URL with `""`/`all` defaults |
| FilterBar.Step | src/features/characters/components/filter-bar.tsx:23-69 | typing and choosing change only local state; a quiet period commits the term as `name`; "Apply" writes the modal's apply of the choices; "Clear" resets term and choices and leaves only the debounced `name` in the URL |
| FilterBar.NameEffect | src/features/characters/components/filter-bar.tsx:23-37 | afterwards the URL name equals the debounced term; keys other than `name` and `page` unchanged; no write when already equal |
| FilterBar.ApplyKeepsSearch | src/features/characters/components/filter-bar.tsx:39-59 | with no search pending, "Apply" writes the modal's apply, keeps `name`, and a fresh bar shows the applied choices |
| FilterBar.ClearSearchEmptiesTerm | src/features/characters/components/filter-bar.tsx:84 | the clear-search button empties the term and changes nothing else |
| FilterBar.ClearFiltersResets | src/features/characters/components/filter-bar.tsx:61-69 | "Clear" and one debounce window leave an empty URL (`name` included) and the bar a fresh mount would have |
| FilterBar.ClearFiltersStaleName | src/features/characters/components/filter-bar.tsx:23-37 | a search still held in the debounced term is briefly written back into the cleared URL |
| CommentsSection.CharacterComments | src/features/characters/components/comments-section.tsx:17 | the list shown is the stored thread, and empty exactly when there is none or it is empty |
| CommentsSection.PostDisabledIff | src/features/characters/components/comments-section.tsx:65 | the Post button is disabled exactly when the input is all white space |
| CommentsSection.HandleAdd | src/features/characters/components/comments-section.tsx:19-24 | blank input issues no store call and changes nothing; otherwise the trimmed text is added and the input cleared |
| CommentsSection.StartEditing | src/features/characters/components/comments-section.tsx:26-29 | edit mode on that comment, with its text as the draft |
| CommentsSection.CancelEditing | src/features/characters/components/comments-section.tsx:101 | edit mode ends, the draft is kept |
| CommentsSection.HandleUpdate | src/features/characters/components/comments-section.tsx:31-36 | a blank draft issues nothing and stays in edit mode; otherwise the trimmed text is sent and edit mode ends |
| CommentsSection.RequestDelete | src/features/characters/components/comments-section.tsx:129 | the comment becomes the one awaiting confirmation |
| CommentsSection.DismissDelete | src/features/characters/components/comments-section.tsx:145 | nothing awaits confirmation any more |
| CommentsSection.ConfirmDelete | src/features/characters/components/comments-section.tsx:38-43 | a delete is sent exactly when a non-empty id is pending, and the pending id is then cleared |
| CommentsSection.ConfirmOnce | src/features/characters/components/comments-section.tsx:38-43 | confirming acts exactly when the dialog is open, and a second confirm does nothing |
| CommentsSection.PostedCommentIsTrimmed | src/features/characters/components/comments-section.tsx:19-24 | a posted comment lands at the end of the thread with non-empty text that has no white space at either end |
| CommentsSection.SavedEditIsTrimmed | src/features/characters/components/comments-section.tsx:31-36 | a saved edit stores the trimmed draft on the matching comments and changes nothing else in the thread |
| WelcomeModal.Init | src/shared/hooks/use-welcome-modal.ts:6-9 | open exactly when a window exists and the flag is absent or empty |
| WelcomeModal.Close | src/shared/hooks/use-welcome-modal.ts:11-14 | closed, the flag stored as exactly `"true"`, other keys untouched |
| WelcomeModal.Open | src/shared/hooks/use-welcome-modal.ts:16-18 | open, storage untouched |
| WelcomeModal.DismissalRemembered | src/shared/hooks/use-welcome-modal.ts:8-12 | after closing, every later load starts closed, even if the modal was reopened in between |
| WelcomeModal.FirstVisitOpens | src/shared/hooks/use-welcome-modal.ts:6-9 | with a window and empty storage the modal starts open |

## Left out

- Rendering (JSX, markup, skeletons, banners, the welcome modal's content) is left out: it holds no state beyond what is modelled.
- GraphQL fetching is left out. The query's `loading`, `error` and `data` are inputs (`CharacterList.Fetch`). The server-side filtering by name, status, species and gender is not modelled.
- Routing is reduced to the query string. `URLSearchParams` is a map from key to one value, so repeated keys and key order are not modelled.
- `localeCompare` is approximated by lexicographic order on code points (`Collation.Lt`). Locale collation rules are not modelled.
- `JSON.parse` and `JSON.stringify` are the `decode`/`encode` parameters. A `decode` result is always a well-shaped store, so the model assumes the shape where the source never checks it.
- Persistence.Load: a parsable entry that is not a stored-data object (`"null"`, `"[]"`) is outside the model; the source keeps it as the state, re-saves it, and throws on first use (`prev.favorites`, `favorites.includes`), on every later load too.
- `crypto.randomUUID()` and `new Date().toISOString()` are the `freshId` and `now` parameters.
- The storage keys come from `src/shared/constants/local-storage`, which is not part of this model, so they are parameters. The draft's literal key is modelled.
- `src/shared/hooks/use-debounce` is not part of this model. Its timer is the `QuietPeriod`/`Quiet` event.
- React's scheduling is modelled by one fixed order: effects run after the render whose dependencies changed. Batching and concurrent rendering are not modelled.
- The filter bar's `showFilters` toggle and the per-field setters are left out. They only change local UI state; choice edits are the `Choose` event. The modal's `isOpen` is the `Open`/`Close` events.
- FilterBar.Step: has no outside-navigation event. Its name effect depends on the URL like the search hook's, so an outside change to `name` would be written back as in Search.NavigationReverted; the bar is not mounted by any component.
- Storage failures are left out: storage is a total map that never throws. In the source, a throwing `localStorage.getItem` in the provider's initialiser is caught and gives the empty store (`src/context/user-interactions-provider.tsx:30-35`), but a throwing `setItem` in the save effect (lines 38-40), in the draft (`src/context/user-interactions.tsx:58`) and in the welcome modal (`src/shared/hooks/use-welcome-modal.ts:12`) is not caught, and neither is the welcome modal's `getItem`. The model promises nothing about those paths.
- Character fields other than `id` and `name` are left out.
- Overlay.AddComment: assumes the generated id is not already in use. A UUID collision is not modelled.
- Sorting.Sort: models `Array.prototype.sort` only through its result. The result is stable and sorted by the comparator. The engine's algorithm is not modelled.
- Search.Step: runs the URL-to-term effect before the commit effect. The revert in Search.NavigationReverted does not depend on that order: the commit reads the debounced value of the same render, which still holds the earlier search, so the URL is reverted in either order.

## Findings

| source | as written | input that shows it | evidently intended | confidence | as-written member | corrected member |
|---|---|---|---|---|---|---|
| src/features/characters/components/character-list.tsx:19 | the list takes `deletedCharacters` from the context. The provider's value spreads the stored data, which names the list `hiddenCharacters`. So the value passed to `useCharacterProcessing` is undefined, and `deletedCharacters.includes` throws a TypeError on the first non-null entry | hide character 3, then show a result list containing character 3 | filter by the stored hidden list, leaving character 3 out | not executed; high | CharacterList.DeletedCharactersThrows | CharacterList.HiddenNeverListed |
| src/features/characters/hooks/use-character-search.ts:32 | the commit effect lists `searchParams` as a dependency. An outside URL change therefore re-runs it while the debounced term still holds the earlier search. It writes that search back into the URL, and the term follows it | URL `name=rick` with the term settled, then a back navigation to an empty query | an outside change flows one way, into the term; the URL is left as navigated | not executed; medium | Search.NavigationReverted | Search.StepIntended |
| src/features/characters/components/filter-modal.tsx:44-53 | "Clear" deletes the filter keys from the URL but leaves the modal's choices as they were. The list keeps the modal mounted unless it shows its error banner, so its state initialisers do not run again while no fetch error intervenes | choose status `alive`, Apply, reopen, Clear, reopen: the modal shows `alive` on a URL without a status, and Apply writes `status=alive` back | "Clear" also resets the choices, as the filter bar's "Clear" does | not executed; medium | FilterModal.ClearShowsStaleChoice | FilterModal.IntendedClearThenApply |

=== FILE: catalog.dfy ===
/** The remote catalog's entities as the pipeline sees them. Only the fields
    the pipeline reads are kept; GraphQL lets both be null. */
module Catalog {
  import opened Wrappers

  datatype Character = Character(id: Option<string>, name: Option<string>)

  /** `char.id || ""`: a null id and an empty id read alike. */
  function IdKey(c: Character): string {
    c.id.GetOr("")
  }

  /** `char.name || ""`. */
  function NameKey(c: Character): string {
    c.name.GetOr("")
  }

  /** `!!char?.id`. */
  predicate HasId(c: Character) {
    IdKey(c) != ""
  }
}

=== FILE: characterlist.dfy ===
/** `CharacterList`: reads the query parameters, runs the processing
    pipeline, applies the group filter and chooses what the list area shows. */
module CharacterList {
  import opened Wrappers
  import opened Params
  import opened Catalog
  import opened Overlay
  import opened Processing
  import Seqs

  /** The parameters as the component reads them: `get(k) || undefined` for the
      four search fields, `get("filter") || "all"`, and the raw `get("sort")`. */
  datatype Query = Query(
    name: Option<string>, status: Option<string>, species: Option<string>, gender: Option<string>,
    filterType: string, sortOrder: Option<string>)

  /** `get(key) || undefined`: present only when set and non-empty. */
  function Field(p: Params, key: string): (r: Option<string>)
    ensures r.Some? <==> key in p && p[key] != ""
    ensures r.Some? ==> r.value == p[key]
  {
    if key in p && p[key] != "" then Some(p[key]) else None
  }

  /** The query the component reads from the URL. */
  function ReadQuery(p: Params): (q: Query)
    ensures q.name == Field(p, "name") && q.status == Field(p, "status")
    ensures q.species == Field(p, "species") && q.gender == Field(p, "gender")
    ensures q.filterType == GetOr(p, "filter", "all") && q.filterType != ""
    ensures q.filterType == "all" <==> Get(p, "filter") in {None, Some(""), Some("all")}
    ensures q.filterType != "all" ==> q.filterType == p["filter"]
    ensures q.sortOrder == Get(p, "sort")
  {
    Query(Field(p, "name"), Field(p, "status"), Field(p, "species"), Field(p, "gender"),
          GetOr(p, "filter", "all"), Get(p, "sort"))
  }

  /** `hasActiveFilters`. */
  predicate HasActiveFilters(q: Query) {
    q.filterType != "all" || q.status.Some? || q.species.Some? || q.gender.Some?
    || Truthy(q.sortOrder) || q.name.Some?
  }

  /** 1 if the condition holds, else 0: a truthy entry of the counted array. */
  function Flag(b: bool): nat {
    if b then 1 else 0
  }

  /** `activeFiltersCount`: status, species, gender and a non-default group
      filter; the name search and the sort are not counted. */
  function ActiveFiltersCount(q: Query): (n: nat)
    ensures n <= 4
    ensures n == 0 <==> q.status.None? && q.species.None? && q.gender.None? && q.filterType == "all"
    ensures n > 0 ==> HasActiveFilters(q)
  {
    Flag(q.status.Some?) + Flag(q.species.Some?) + Flag(q.gender.Some?) + Flag(q.filterType != "all")
  }

  /** Setting one more of status, species and gender, from unset to a
      non-empty value, raises the badge count by exactly one. */
  lemma CountFieldAddsOne(p: Params, k: string, v: string)
    requires k == "status" || k == "species" || k == "gender"
    requires Field(p, k).None? && v != ""
    ensures ActiveFiltersCount(ReadQuery(p[k := v])) == ActiveFiltersCount(ReadQuery(p)) + 1
  {
  }

  /** Choosing a group filter other than `all`, where there was none, raises
      the badge count by exactly one. */
  lemma CountGroupFilterAddsOne(p: Params, v: string)
    requires GetOr(p, "filter", "all") == "all"
    requires v != "" && v != "all"
    ensures ActiveFiltersCount(ReadQuery(p["filter" := v])) == ActiveFiltersCount(ReadQuery(p)) + 1
  {
  }

  /** Status and species set, nothing else: the badge reads "2 Filter". */
  lemma CountTwoFilters()
    ensures ActiveFiltersCount(ReadQuery(map["status" := "alive", "species" := "human"])) == 2
  {
  }

  /** In terms of the raw parameters: the filters are active exactly when a
      group filter other than `all` is chosen or one of the five other keys
      holds a non-empty value. */
  lemma HasActiveFiltersIff(p: Params)
    ensures HasActiveFilters(ReadQuery(p)) <==>
              || (GetOr(p, "filter", "all") != "all")
              || (exists k :: k in ["status", "species", "gender", "sort", "name"] && k in p && p[k] != "")
  {
    var q := ReadQuery(p);
    if HasActiveFilters(q) && GetOr(p, "filter", "all") == "all" {
      if q.status.Some? { assert "status" in ["status", "species", "gender", "sort", "name"]; }
      else if q.species.Some? { assert "species" in ["status", "species", "gender", "sort", "name"]; }
      else if q.gender.Some? { assert "gender" in ["status", "species", "gender", "sort", "name"]; }
      else if Truthy(q.sortOrder) { assert "sort" in ["status", "species", "gender", "sort", "name"]; }
      else { assert "name" in ["status", "species", "gender", "sort", "name"]; }
    }
  }

  /** Changing the name search or the sort does not change the filter count. */
  lemma CountIgnoresNameAndSort(p: Params, name: string, sort: string)
    ensures ActiveFiltersCount(ReadQuery(p["name" := name]["sort" := sort])) == ActiveFiltersCount(ReadQuery(p))
  {
    var p' := p["name" := name]["sort" := sort];
    assert Field(p', "status") == Field(p, "status");
    assert Field(p', "species") == Field(p, "species");
    assert Field(p', "gender") == Field(p, "gender");
    assert GetOr(p', "filter", "all") == GetOr(p, "filter", "all");
  }

  /** `results`: the group chosen by the filter type; any other value shows the whole filtered list. */
  function Results(filterType: string, p: Processed): (r: seq<Character>)
    ensures filterType == "starred" ==> r == p.starred
    ensures filterType == "others" ==> r == p.others
    ensures filterType != "starred" && filterType != "others" ==> r == p.filtered
  {
    if filterType == "starred" then p.starred
    else if filterType == "others" then p.others
    else p.filtered
  }

  /** `displayStarred` / `displayOthers`: `results` split again by `favorites.includes(char.id || "")`. */
  function DisplayGroups(results: seq<Character>, favorites: seq<string>): (g: Groups)
    ensures forall c :: c in g.starred <==> c in results && IdKey(c) in favorites
    ensures forall c :: c in g.others <==> c in results && IdKey(c) !in favorites
    ensures |g.starred| + |g.others| == |results|
  {
    if |results| == 0 then Groups([], [])
    else
      var c := results[0];
      var rest := DisplayGroups(results[1..], favorites);
      assert results == [c] + results[1..];
      if IdKey(c) in favorites then Groups([c] + rest.starred, rest.others)
      else Groups(rest.starred, [c] + rest.others)
  }

  /** Splitting keeps the results' order: it distributes over concatenation,
      so each group lists its characters in the order `results` has them. */
  lemma {:induction false} DisplayGroupsAppend(a: seq<Character>, b: seq<Character>, favorites: seq<string>)
    ensures DisplayGroups(a + b, favorites).starred == DisplayGroups(a, favorites).starred + DisplayGroups(b, favorites).starred
    ensures DisplayGroups(a + b, favorites).others == DisplayGroups(a, favorites).others + DisplayGroups(b, favorites).others
    decreases |a|
  {
    if |a| > 0 {
      assert (a + b)[0] == a[0] && (a + b)[1..] == a[1..] + b;
      DisplayGroupsAppend(a[1..], b, favorites);
      var ga, gb := DisplayGroups(a[1..], favorites), DisplayGroups(b, favorites);
      Seqs.ConcatAssoc([a[0]], ga.starred, gb.starred);
      Seqs.ConcatAssoc([a[0]], ga.others, gb.others);
    } else {
      assert a + b == b;
    }
  }

  /** On characters that all carry an id, the display split is the
      processing hook's split, order included; they differ only in that
      the display puts id-less characters among the others. */
  lemma {:induction false} DisplayMatchesPartition(results: seq<Character>, favorites: seq<string>)
    requires forall c :: c in results ==> HasId(c)
    ensures DisplayGroups(results, favorites) == Partition(results, favorites)
    decreases |results|
  {
    if |results| > 0 {
      var c := results[0];
      assert results == [c] + results[1..];
      assert c in results;
      DisplayMatchesPartition(results[1..], favorites);
      PartitionCons(c, results[1..], favorites);
    }
  }

  /** A list whose ids are all favourites is displayed as starred, unchanged. */
  lemma {:induction false} DisplayAllStarred(results: seq<Character>, favorites: seq<string>)
    requires forall c :: c in results ==> IdKey(c) in favorites
    ensures DisplayGroups(results, favorites) == Groups(results, [])
    decreases |results|
  {
    if |results| > 0 {
      assert results == [results[0]] + results[1..];
      DisplayAllStarred(results[1..], favorites);
    }
  }

  /** A list with no favourite ids is displayed as others, unchanged. */
  lemma {:induction false} DisplayAllOthers(results: seq<Character>, favorites: seq<string>)
    requires forall c :: c in results ==> IdKey(c) !in favorites
    ensures DisplayGroups(results, favorites) == Groups([], results)
    decreases |results|
  {
    if |results| > 0 {
      assert results == [results[0]] + results[1..];
      DisplayAllOthers(results[1..], favorites);
    }
  }

  /** Under `starred` the others group is empty and under `others` the
      starred group is; in both cases the displayed group is the chosen one. */
  lemma GroupFilterExclusive(results: Option<seq<Option<Character>>>, hidden: seq<string>,
                             favorites: seq<string>, sortOrder: Option<string>, filterType: string)
    ensures var p := UseCharacterProcessing(results, hidden, favorites, sortOrder);
            var g := DisplayGroups(Results(filterType, p), favorites);
            && (filterType == "starred" ==> g == Groups(p.starred, []))
            && (filterType == "others" ==> g == Groups([], p.others))
  {
    var p := UseCharacterProcessing(results, hidden, favorites, sortOrder);
    if filterType == "starred" {
      DisplayAllStarred(p.starred, favorites);
    } else if filterType == "others" {
      DisplayAllOthers(p.others, favorites);
    }
  }

  /** What the list area shows, in the order the component decides it. */
  datatype ListState =
    | ErrorBanner
    | Skeleton
    | ZeroResults(activeCount: nat)     // "0 Results", with the filter badge when the count is positive
    | NoCharacters                      // "No characters found"
    | Showing(count: nat, header: bool, activeCount: nat)

  /** The error check, then `renderList`. */
  function Decide(error: bool, loading: bool, hasData: bool, resultCount: nat,
                  active: bool, activeCount: nat): (r: ListState)
    ensures r.ErrorBanner? <==> error
    ensures r.Skeleton? <==> !error && loading && (!hasData || resultCount == 0)
    ensures r.ZeroResults? <==> !error && !loading && resultCount == 0 && active
    ensures r.NoCharacters? <==> !error && !loading && resultCount == 0 && !active
    ensures r.Showing? <==> !error && resultCount > 0 && (hasData || !loading)
    ensures r.Showing? ==> r.count == resultCount && r.header == active && r.activeCount == activeCount
    ensures r.ZeroResults? ==> r.activeCount == activeCount
  {
    if error then ErrorBanner
    else if loading && !hasData then Skeleton
    else if resultCount == 0 then
      if loading then Skeleton
      else if active then ZeroResults(activeCount)
      else NoCharacters
    else Showing(resultCount, active, activeCount)
  }

  /** The query result: `loading`, `error`, and `data` (None while undefined),
      whose `characters?.results` may itself be missing. */
  datatype Fetch = Fetch(loading: bool, error: bool, data: Option<Option<seq<Option<Character>>>>)

  /** What the component shows. */
  datatype Screen = Screen(state: ListState, starred: seq<Character>, others: seq<Character>)

  /** The whole component, reading the hidden list the provider stores. */
  function Render(s: StoredData, p: Params, f: Fetch): (r: Screen)
    ensures var q := ReadQuery(p);
            var proc := UseCharacterProcessing(f.data.GetOr(None), s.hidden, s.favorites, q.sortOrder);
            var results := Results(q.filterType, proc);
            && r.state == Decide(f.error, f.loading, f.data.Some?, |results|, HasActiveFilters(q), ActiveFiltersCount(q))
            && |r.starred| + |r.others| == |results|
            && (forall c :: c in r.starred <==> c in results && IdKey(c) in s.favorites)
            && (forall c :: c in r.others <==> c in results && IdKey(c) !in s.favorites)
  {
    var q := ReadQuery(p);
    var proc := UseCharacterProcessing(f.data.GetOr(None), s.hidden, s.favorites, q.sortOrder);
    var results := Results(q.filterType, proc);
    var g := DisplayGroups(results, s.favorites);
    Screen(Decide(f.error, f.loading, f.data.Some?, |results|, HasActiveFilters(q), ActiveFiltersCount(q)),
           g.starred, g.others)
  }

  /** A hidden character is never displayed, whatever the parameters. */
  lemma HiddenNeverListed(s: StoredData, p: Params, f: Fetch, c: Character)
    requires IdKey(c) in s.hidden
    ensures c !in Render(s, p, f).starred && c !in Render(s, p, f).others
  {
    var q := ReadQuery(p);
    HiddenNeverShown(f.data.GetOr(None), s.hidden, s.favorites, q.sortOrder, c);
  }

  // ---------------------------------------------------------------------------
  // As written, the component destructures `deletedCharacters` from the
  // context, but the provider's value carries the list as `hiddenCharacters`.

  /** Reading an id-list field off the provider's context value; any other
      name is `undefined`. */
  function ContextList(s: StoredData, field: string): (r: Option<seq<string>>)
    ensures field == "hiddenCharacters" ==> r == Some(s.hidden)
    ensures field == "deletedCharacters" ==> r == None
  {
    if field == "favorites" then Some(s.favorites)
    else if field == "hiddenCharacters" then Some(s.hidden)
    else None
  }

  /** The filter step with the list read as written: `undefined.includes`
      throws a TypeError as soon as a non-null entry reaches it. */
  function VisibleAsWritten(entries: seq<Option<Character>>, deleted: Option<seq<string>>): (r: Result<seq<Character>, string>)
    ensures deleted.Some? ==> r == Success(Visible(entries, deleted.value))
    ensures deleted.None? ==> (r.Failure? <==> exists i :: 0 <= i < |entries| && entries[i].Some?)
  {
    match deleted
    case Some(h) => Success(Visible(entries, h))
    case None =>
      if exists i :: 0 <= i < |entries| && entries[i].Some? then Failure("TypeError") else Success([])
  }

  /** After hiding character 3, the component as written throws on a list
      containing it, where the intended pipeline simply leaves it out. */
  lemma DeletedCharactersThrows()
    ensures var s := HideCharacter(Initial, "3");
            var entries := [Some(P3)];
            && VisibleAsWritten(entries, ContextList(s, "deletedCharacters")).Failure?
            && Visible(entries, ContextList(s, "hiddenCharacters").value) == []
  {
    var s := HideCharacter(Initial, "3");
    assert [Some(P3)][0].Some?;
    VisibleCons(Some(P3), [], s.hidden);
  }
}

=== FILE: collation.dfy ===
/** The string order used when sorting by name. The source calls the
    locale-aware `localeCompare`; this model uses plain lexicographic order
    on character codes, which is a strict total order as well. */
module Collation {

  /** `a` sorts strictly before `b`. */
  predicate Lt(a: string, b: string)
    decreases |a|
  {
    if |a| == 0 then |b| > 0
    else if |b| == 0 then false
    else if a[0] != b[0] then a[0] < b[0]
    else Lt(a[1..], b[1..])
  }

  lemma {:induction false} LtIrreflexive(a: string)
    ensures !Lt(a, a)
    decreases |a|
  {
    if |a| > 0 {
      LtIrreflexive(a[1..]);
    }
  }

  lemma {:induction false} LtAsymmetric(a: string, b: string)
    ensures Lt(a, b) ==> !Lt(b, a)
    decreases |a|
  {
    if |a| > 0 && |b| > 0 && a[0] == b[0] {
      LtAsymmetric(a[1..], b[1..]);
    }
  }

  lemma {:induction false} LtTransitive(a: string, b: string, c: string)
    ensures Lt(a, b) && Lt(b, c) ==> Lt(a, c)
    decreases |a|
  {
    if |a| > 0 && |b| > 0 && |c| > 0 && a[0] == b[0] && b[0] == c[0] {
      LtTransitive(a[1..], b[1..], c[1..]);
    }
  }

  /** Any two distinct strings are ordered one way or the other. */
  lemma {:induction false} LtTotal(a: string, b: string)
    ensures a == b || Lt(a, b) || Lt(b, a)
    decreases |a|
  {
    if |a| > 0 && |b| > 0 && a[0] == b[0] {
      LtTotal(a[1..], b[1..]);
      if a[1..] == b[1..] {
        assert a == [a[0]] + a[1..] && b == [b[0]] + b[1..];
      }
    }
  }
}

=== FILE: comments.dfy ===
/** The comments section of a character's detail page: the local form state
    and the guards that decide whether a store action is issued. */
module CommentsSection {
  import opened Wrappers
  import opened Text
  import Overlay

  /** The component's local state: the new-comment input, the comment being
      edited with its draft text, and the comment awaiting delete confirmation. */
  datatype Form = Form(newComment: string, editingId: Option<string>, editText: string,
                       pendingDelete: Option<string>)

  const Blank := Form("", None, "", None)

  /** The list shown: `comments[characterId] || []`. An array is always
      truthy, so only an absent thread falls back to the empty list. */
  function CharacterComments(s: Overlay.StoredData, characterId: string): (t: seq<Overlay.Comment>)
    ensures characterId in s.comments ==> t == s.comments[characterId]
    ensures t == [] <==> characterId !in s.comments || s.comments[characterId] == []
  {
    Overlay.Thread(s, characterId)
  }

  /** The Post button is disabled when the trimmed input is empty. */
  predicate PostDisabled(f: Form) {
    Trim(f.newComment) == []
  }

  lemma PostDisabledIff(f: Form)
    ensures PostDisabled(f) <==> AllWhiteSpace(f.newComment)
  {
    TrimEmptyIff(f.newComment);
  }

  /** Submitting the form: blank input issues nothing and leaves the form as
      it was; otherwise the trimmed text goes to the store and the input is cleared. */
  function HandleAdd(f: Form, characterId: string): (r: (Form, Option<Overlay.Action>))
    ensures r.1.None? <==> AllWhiteSpace(f.newComment)
    ensures r.1.None? ==> r.0 == f
    ensures r.1.Some? ==> r.1.value == Overlay.Add(characterId, Trim(f.newComment))
    ensures r.1.Some? ==> r.0 == f.(newComment := "")
  {
    TrimEmptyIff(f.newComment);
    var text := Trim(f.newComment);
    if text == [] then (f, None)
    else (f.(newComment := ""), Some(Overlay.Add(characterId, text)))
  }

  /** The edit button: enters edit mode on a comment with its current text as the draft. */
  function StartEditing(f: Form, id: string, text: string): (r: Form)
    ensures r.editingId == Some(id) && r.editText == text
    ensures r.newComment == f.newComment && r.pendingDelete == f.pendingDelete
  {
    f.(editingId := Some(id), editText := text)
  }

  /** The cancel button: leaves edit mode, keeping the draft text. */
  function CancelEditing(f: Form): (r: Form)
    ensures r.editingId == None && r.editText == f.editText
  {
    f.(editingId := None)
  }

  /** Saving an edit: a blank draft issues nothing and stays in edit mode;
      otherwise the trimmed text goes to the store and edit mode ends. */
  function HandleUpdate(f: Form, characterId: string, id: string): (r: (Form, Option<Overlay.Action>))
    ensures r.1.None? <==> AllWhiteSpace(f.editText)
    ensures r.1.None? ==> r.0 == f
    ensures r.1.Some? ==> r.1.value == Overlay.Edit(characterId, id, Trim(f.editText))
    ensures r.1.Some? ==> r.0 == f.(editingId := None, editText := "")
  {
    TrimEmptyIff(f.editText);
    var text := Trim(f.editText);
    if text == [] then (f, None)
    else (f.(editingId := None, editText := ""), Some(Overlay.Edit(characterId, id, text)))
  }

  /** The delete button: asks for confirmation of that comment. */
  function RequestDelete(f: Form, id: string): (r: Form)
    ensures r.pendingDelete == Some(id) && r.newComment == f.newComment && r.editingId == f.editingId
  {
    f.(pendingDelete := Some(id))
  }

  /** Dismissing the confirmation dialog. */
  function DismissDelete(f: Form): (r: Form)
    ensures r.pendingDelete == None && r.newComment == f.newComment && r.editingId == f.editingId
  {
    f.(pendingDelete := None)
  }

  /** `!!deleteCommentId`: the confirmation dialog is open. */
  predicate DeleteDialogOpen(f: Form) {
    f.pendingDelete.Some? && f.pendingDelete.value != ""
  }

  /** Confirming: the store is asked to delete only when a (truthy) pending
      id exists, and the pending id is then cleared. */
  function ConfirmDelete(f: Form, characterId: string): (r: (Form, Option<Overlay.Action>))
    ensures r.1.Some? <==> f.pendingDelete.Some? && f.pendingDelete.value != ""
    ensures r.1.Some? ==> r.1.value == Overlay.Delete(characterId, f.pendingDelete.value)
    ensures r.1.Some? ==> r.0 == f.(pendingDelete := None)
    ensures r.1.None? ==> r.0 == f
  {
    match f.pendingDelete
    case Some(id) =>
      if id != "" then (f.(pendingDelete := None), Some(Overlay.Delete(characterId, id)))
      else (f, None)
    case None => (f, None)
  }

  /** Confirming acts exactly when the dialog is open, and a second confirm does nothing. */
  lemma ConfirmOnce(f: Form, characterId: string)
    ensures ConfirmDelete(f, characterId).1.Some? <==> DeleteDialogOpen(f)
    ensures ConfirmDelete(ConfirmDelete(f, characterId).0, characterId).1.None?
  {
  }

  /** A posted comment lands at the end of the character's thread with text
      that is non-empty and has no white space at either end. */
  lemma PostedCommentIsTrimmed(s: Overlay.StoredData, f: Form, characterId: string, freshId: string, now: string)
    requires freshId !in Overlay.AllCommentIds(s)
    requires !AllWhiteSpace(f.newComment)
    ensures var a := HandleAdd(f, characterId).1.value;
            var t := Overlay.Thread(Overlay.Reduce(s, a, freshId, now), characterId);
            && |t| == |Overlay.Thread(s, characterId)| + 1
            && t[|t| - 1].text != []
            && Trim(t[|t| - 1].text) == t[|t| - 1].text
            && !IsWhiteSpace(t[|t| - 1].text[0])
  {
    TrimEmptyIff(f.newComment);
    TrimIdempotent(f.newComment);
  }

  /** A saved edit stores the trimmed draft on the matching comments of the
      thread and changes nothing else in it. */
  lemma SavedEditIsTrimmed(s: Overlay.StoredData, f: Form, characterId: string, id: string, i: int)
    requires !AllWhiteSpace(f.editText)
    requires 0 <= i < |Overlay.Thread(s, characterId)|
    ensures var a := HandleUpdate(f, characterId, id).1.value;
            var before := Overlay.Thread(s, characterId)[i];
            var after := Overlay.Thread(Overlay.Reduce(s, a, "", ""), characterId)[i];
            && after.id == before.id && after.createdAt == before.createdAt
            && after.text == (if before.id == id then Trim(f.editText) else before.text)
  {
  }
}

=== FILE: draft.dfy ===
/** The earlier draft of the store (`src/context/user-interactions.tsx`): the
    same reducers minus `editComment`, a literal storage key, and its own
    `useUserInteractions` guard. */
module DraftStore {
  import opened Wrappers
  import opened Overlay
  import Persistence

  /** The draft's `STORAGE_KEY`. */
  const StorageKey := "rick-morty-user-interactions"

  /** Loads under the draft's key, falling back to the empty default. */
  function Load(storage: Persistence.Storage, decode: string -> Option<StoredData>): (r: StoredData)
    ensures StorageKey !in storage ==> r == Initial
    ensures r == Initial || (StorageKey in storage && decode(storage[StorageKey]) == Some(r))
    ensures StorageKey in storage && storage[StorageKey] == "" ==> r == Initial
    ensures StorageKey in storage && storage[StorageKey] != "" && decode(storage[StorageKey]).Some? ==>
              r == decode(storage[StorageKey]).value
    ensures StorageKey in storage && storage[StorageKey] != "" && decode(storage[StorageKey]).None? ==>
              r == Initial
  {
    Persistence.Load(storage, StorageKey, decode)
  }

  /** The actions the draft's context offers: everything but `editComment`. */
  predicate Offers(a: Action) {
    !a.Edit?
  }

  /** The draft's reducers. Same transitions as the provider's. */
  function Reduce(s: StoredData, a: Action, freshId: string, now: string): (r: StoredData)
    requires Offers(a)
    requires a.Add? ==> freshId !in AllCommentIds(s)
    ensures a.Toggle? ==> (a.id in r.favorites <==> a.id !in s.favorites)
                          && (forall x :: x != a.id ==> (x in r.favorites <==> x in s.favorites))
    ensures a.Hide? ==> |r.hidden| == |s.hidden| + 1 && r.hidden[..|s.hidden|] == s.hidden && a.id in r.hidden
    ensures a.Add? ==> && |Thread(r, a.characterId)| == |Thread(s, a.characterId)| + 1
                       && Thread(r, a.characterId)[..|Thread(s, a.characterId)|] == Thread(s, a.characterId)
                       && Thread(r, a.characterId)[|Thread(s, a.characterId)|].text == a.text
    ensures a.Delete? ==> && a.characterId in r.comments
                          && forall c :: c in Thread(r, a.characterId) <==>
                                         c in Thread(s, a.characterId) && c.id != a.commentId
    ensures (a.Add? || a.Delete?) ==>
              forall k :: k != a.characterId ==> (k in r.comments <==> k in s.comments) && Thread(r, k) == Thread(s, k)
    ensures (a.Toggle? || a.Hide?) ==> r.comments == s.comments
    ensures !a.Toggle? ==> r.favorites == s.favorites
    ensures !a.Hide? ==> r.hidden == s.hidden
  {
    Overlay.Reduce(s, a, freshId, now)
  }

  /** `useUserInteractions`: reading the context outside a provider throws. */
  const OutsideProvider := "useUserInteractions must be used within a UserInteractionsProvider"

  function UseUserInteractions<T>(context: Option<T>): (r: Result<T, string>)
    ensures r.Success? <==> context.Some?
    ensures context.Some? ==> r.value == context.value
    ensures context.None? ==> r.error == OutsideProvider
  {
    match context
    case Some(v) => Success(v)
    case None => Failure(OutsideProvider)
  }
}

=== FILE: filterbar.dfy ===
/** The filter bar: a search box with its own debounced `name` commit, the
    filter choices with "Apply", and a "Clear" that empties the whole URL. */
module FilterBar {
  import opened Wrappers
  import opened Params
  import Search
  import FilterModal

  /** The bar's state: the input's term, the debounced term, the filter
      choices and the URL parameters. */
  datatype Bar = Bar(term: string, debounced: string, choices: FilterModal.Choices, params: Params)

  datatype Event =
    | Type(text: string)                 // typing in the search input
    | ClearSearch                        // the "✕" button beside the input
    | Quiet                              // the 500 ms debounce window elapses
    | Choose(choices: FilterModal.Choices)  // editing the filter controls
    | ApplyFilters
    | ClearFilters

  /** Mounting: every local field from the URL with `""` / `"all"` defaults. */
  function Mount(p: Params): (b: Bar)
    ensures b.term == Search.NameOf(p) && b.debounced == b.term
    ensures b.choices == FilterModal.Init(p) && b.params == p
  {
    Bar(Search.NameOf(p), Search.NameOf(p), FilterModal.Init(p), p)
  }

  /** The debounced-name effect, the same commit as the search hook's: it
      runs whenever the debounced term or the parameters change. */
  function NameEffect(b: Bar): (r: Bar)
    ensures Search.NameOf(r.params) == b.debounced
    ensures r.term == b.term && r.debounced == b.debounced && r.choices == b.choices
    ensures forall k :: k != "name" && k != "page" ==> Get(r.params, k) == Get(b.params, k)
    ensures b.debounced == Search.NameOf(b.params) ==> r == b
  {
    match Search.CommitName(b.debounced, b.params)
    case None => b
    case Some(q) => b.(params := q)
  }

  /** One event. Typing and choosing only change local state; "Apply"
      writes the modal's apply of the choices; "Clear" resets every local
      field and empties the URL; the name effect then runs on whatever URL
      results, with the debounced term it has at that moment. */
  function Step(b: Bar, e: Event): (r: Bar)
    ensures e.Type? ==> r == b.(term := e.text)
    ensures e.ClearSearch? ==> r == b.(term := "")
    ensures e.Choose? ==> r == b.(choices := e.choices)
    ensures e.Quiet? ==> r.debounced == b.term && Search.NameOf(r.params) == b.term
    ensures e.Quiet? ==> forall k :: k != "name" && k != "page" ==> Get(r.params, k) == Get(b.params, k)
    ensures e.ApplyFilters? ==> r.choices == b.choices && Search.NameOf(r.params) == b.debounced
    ensures e.ApplyFilters? ==>
              forall k :: k != "name" ==> Get(r.params, k) == Get(FilterModal.Apply(b.choices, b.params), k)
    ensures e.ClearFilters? ==> r.term == "" && r.choices == FilterModal.Defaults
    ensures e.ClearFilters? ==> Search.NameOf(r.params) == b.debounced && forall k :: k != "name" ==> k !in r.params
  {
    match e
    case Type(text) => b.(term := text)
    case ClearSearch => b.(term := "")
    case Quiet => NameEffect(b.(debounced := b.term))
    case Choose(c) => b.(choices := c)
    case ApplyFilters => NameEffect(b.(params := FilterModal.Apply(b.choices, b.params)))
    case ClearFilters =>
      NameEffect(b.(term := "", choices := FilterModal.Defaults, params := map[]))
  }

  /** "Apply" with no search pending: the URL holds exactly the modal's
      "Apply" of the bar's choices, the search `name` is kept, and a fresh
      bar on that URL shows the same choices. */
  lemma ApplyKeepsSearch(b: Bar)
    requires b.debounced == Search.NameOf(b.params)
    ensures var r := Step(b, ApplyFilters);
            && r.params == FilterModal.Apply(b.choices, b.params)
            && Get(r.params, "name") == Get(b.params, "name")
            && Mount(r.params).choices == FilterModal.Normal(b.choices)
  {
    var q := FilterModal.Apply(b.choices, b.params);
    assert !FilterModal.Managed("name");
    assert Get(q, "name") == Get(b.params, "name");
    assert Search.NameOf(q) == Search.NameOf(b.params);
    assert Step(b, ApplyFilters) == b.(params := q);
    FilterModal.ApplyThenInit(b.choices, b.params);
  }

  /** The clear-search button empties the term and nothing else. */
  lemma ClearSearchEmptiesTerm(b: Bar)
    ensures var r := Step(b, ClearSearch);
            r.term == "" && r.debounced == b.debounced && r.choices == b.choices && r.params == b.params
  {
  }

  /** "Clear" followed by the debounce window: an empty URL, `name` included
      (unlike the modal's "Clear"), and a bar in the state a fresh mount on
      that URL would have. */
  lemma ClearFiltersResets(b: Bar)
    ensures var r := Step(Step(b, ClearFilters), Quiet);
            && r.params == map[]
            && r == Mount(map[])
  {
    var m := Step(b, ClearFilters);
    assert Search.NameOf(map[]) == "";
    assert m.term == "" && m.choices == FilterModal.Defaults;
    var r := Step(m, Quiet);
    assert Search.NameOf(r.params) == "";
    assert forall k :: k != "name" && k != "page" ==> k !in r.params;
    assert forall k :: k !in r.params;
    assert r.params == map[];
    assert FilterModal.Init(map[]) == FilterModal.Defaults;
  }

  /** While a search is still in the debounced term, "Clear" first writes
      that search back into the emptied URL; only the next debounce window removes it. */
  lemma ClearFiltersStaleName()
    ensures var b := Bar("rick", "rick", FilterModal.Defaults, map["name" := "rick"]);
            Step(b, ClearFilters).params == map["name" := "rick"]
  {
    var b := Bar("rick", "rick", FilterModal.Defaults, map["name" := "rick"]);
    assert Search.NameOf(map[]) == "";
    var q := Search.CommitName("rick", map[]);
    assert q.Some? && Get(q.value, "name") == Some("rick");
    assert q.value == map["name" := "rick"];
  }
}

=== FILE: filtermodal.dfy ===
/** The filter modal: local choices initialised from the URL when the modal
    mounts, written back on "Apply"; "Clear" removes the filter keys from the
    URL. The list keeps the modal mounted, its content hidden while closed,
    unless the list shows its error banner instead; so the choices survive
    closing and reopening, and are read again only on a remount. */
module FilterModal {
  import opened Wrappers
  import opened Params

  /** The modal's local state. An unset choice is the empty string; the
      filter type defaults to "all". */
  datatype Choices = Choices(status: string, species: string, gender: string,
                             filterType: string, sortOrder: string)

  /** The choices a modal mounted on an empty URL shows. */
  const Defaults := Choices("", "", "", "all", "")

  /** Keys the modal writes; "Apply" also deletes `page`. */
  predicate Managed(k: string) {
    k in {"status", "species", "gender", "filter", "sort"}
  }

  /** The initial local state read from the URL: the state initialisers run
      once, when the modal mounts. */
  function Init(p: Params): (c: Choices)
    ensures c.status == GetOr(p, "status", "") && c.species == GetOr(p, "species", "")
    ensures c.gender == GetOr(p, "gender", "") && c.sortOrder == GetOr(p, "sort", "")
    ensures c.filterType == GetOr(p, "filter", "all") && c.filterType != ""
  {
    Choices(GetOr(p, "status", ""), GetOr(p, "species", ""), GetOr(p, "gender", ""),
            GetOr(p, "filter", "all"), GetOr(p, "sort", ""))
  }

  /** "all" and an empty filter type both mean "no filter" and are not written. */
  predicate WritesFilter(filterType: string) {
    filterType != "" && filterType != "all"
  }

  /** "Apply": every choice set or deleted, `page` deleted, other keys (such
      as the search `name`) kept. */
  function Apply(c: Choices, p: Params): (r: Params)
    ensures Get(r, "status") == (if c.status != "" then Some(c.status) else None)
    ensures Get(r, "species") == (if c.species != "" then Some(c.species) else None)
    ensures Get(r, "gender") == (if c.gender != "" then Some(c.gender) else None)
    ensures Get(r, "filter") == (if WritesFilter(c.filterType) then Some(c.filterType) else None)
    ensures Get(r, "sort") == (if c.sortOrder != "" then Some(c.sortOrder) else None)
    ensures "page" !in r
    ensures forall k :: !Managed(k) && k != "page" ==> Get(r, k) == Get(p, k)
  {
    var p1 := SetOrDelete(p, "status", c.status);
    var p2 := SetOrDelete(p1, "species", c.species);
    var p3 := SetOrDelete(p2, "gender", c.gender);
    var p4 := if WritesFilter(c.filterType) then p3["filter" := c.filterType] else Delete(p3, "filter");
    var p5 := SetOrDelete(p4, "sort", c.sortOrder);
    Delete(p5, "page")
  }

  /** "Clear": the five filter keys deleted; everything else, `page` and
      `name` included, kept. */
  function Clear(p: Params): (r: Params)
    ensures forall k :: Managed(k) ==> k !in r
    ensures forall k :: !Managed(k) ==> Get(r, k) == Get(p, k)
  {
    p - {"status", "species", "gender", "filter", "sort"}
  }

  /** The choices as a modal would read them back: an empty filter type shows as "all". */
  function Normal(c: Choices): Choices {
    if c.filterType == "" then c.(filterType := "all") else c
  }

  /** Round trip: a modal mounted afresh (after a reload, say) on the URL
      "Apply" produced shows the applied choices. */
  lemma ApplyThenInit(c: Choices, p: Params)
    ensures Init(Apply(c, p)) == Normal(c)
  {
    var r := Apply(c, p);
    assert Get(r, "filter") == (if WritesFilter(c.filterType) then Some(c.filterType) else None);
  }

  /** The reverse trip: applying the choices read from a URL changes nothing
      but `page` and the filter keys that held "" (or "all" for `filter`). */
  lemma InitThenApply(p: Params)
    ensures var r := Apply(Init(p), p);
            forall k :: k != "page" ==> GetOr(r, k, "") == GetOr(p, k, "") || (k == "filter" && GetOr(p, k, "") == "all")
  {
    var r := Apply(Init(p), p);
    forall k | k != "page"
      ensures GetOr(r, k, "") == GetOr(p, k, "") || (k == "filter" && GetOr(p, k, "") == "all")
    {
      if k == "filter" {
        assert Get(r, "filter") == (if WritesFilter(Init(p).filterType) then Some(Init(p).filterType) else None);
      } else if k == "status" {
        assert Get(r, "status") == (if Init(p).status != "" then Some(Init(p).status) else None);
      } else if k == "species" {
        assert Get(r, "species") == (if Init(p).species != "" then Some(Init(p).species) else None);
      } else if k == "gender" {
        assert Get(r, "gender") == (if Init(p).gender != "" then Some(Init(p).gender) else None);
      } else if k == "sort" {
        assert Get(r, "sort") == (if Init(p).sortOrder != "" then Some(Init(p).sortOrder) else None);
      } else {
        assert Get(r, k) == Get(p, k);
      }
    }
  }

  /** A modal mounted afresh on the URL "Clear" produced shows the defaults,
      and "Clear" is idempotent. */
  lemma ClearResets(p: Params)
    ensures Init(Clear(p)) == Defaults
    ensures Clear(Clear(p)) == Clear(p)
  {
    assert Managed("status") && Managed("species") && Managed("gender") && Managed("filter") && Managed("sort");
  }

  // ---------------------------------------------------------------------------
  // The mounted modal over time

  /** A mounted modal: whether its content shows, its choices, and the URL. */
  datatype Modal = Modal(open: bool, choices: Choices, url: Params)

  datatype Event =
    | Open                     // the list's filter button
    | Close                    // the backdrop, or "Apply"/"Clear" through `onClose`
    | Choose(c: Choices)       // editing the controls, which only exist while open
    | ApplyPressed
    | ClearPressed
    | Navigate(to: Params)     // the URL changes elsewhere (search box, back button)
    | Remount                  // the list's error banner came and went: the initialisers run again

  /** Mounting with the list: closed, choices read from the URL. */
  function Mount(p: Params): (m: Modal)
    ensures !m.open && m.choices == Init(p) && m.url == p
  {
    Modal(false, Init(p), p)
  }

  /** One event, as written: nothing but the controls and a remount ever
      changes the choices, "Clear" included. */
  function Step(m: Modal, e: Event): (r: Modal)
    ensures !e.Choose? && !e.Remount? ==> r.choices == m.choices
    ensures e.Remount? ==> r == m.(choices := Init(m.url))
    ensures e.Choose? ==> r.choices == (if m.open then e.c else m.choices) && r.url == m.url
    ensures e.Open? ==> r == m.(open := true)
    ensures e.Close? ==> r == m.(open := false)
    ensures e.ApplyPressed? ==> r.url == (if m.open then Apply(m.choices, m.url) else m.url)
    ensures e.ClearPressed? ==> r.url == (if m.open then Clear(m.url) else m.url)
    ensures (e.ApplyPressed? || e.ClearPressed?) && m.open ==> !r.open
    ensures e.Navigate? ==> r.url == e.to && r.open == m.open
  {
    match e
    case Open => m.(open := true)
    case Close => m.(open := false)
    case Choose(c) => if m.open then m.(choices := c) else m
    case ApplyPressed => if m.open then Modal(false, m.choices, Apply(m.choices, m.url)) else m
    case ClearPressed => if m.open then Modal(false, m.choices, Clear(m.url)) else m
    case Navigate(p) => m.(url := p)
    case Remount => m.(choices := Init(m.url))
  }

  /** One event with "Clear" also resetting the choices to the defaults, as
      the filter bar's "Clear" does with its own. */
  function StepIntended(m: Modal, e: Event): (r: Modal)
    ensures e.ClearPressed? && m.open ==> r == Modal(false, Defaults, Clear(m.url))
    ensures !(e.ClearPressed? && m.open) ==> r == Step(m, e)
  {
    if e.ClearPressed? && m.open then Modal(false, Defaults, Clear(m.url)) else Step(m, e)
  }

  /** The modal shows what the URL says. */
  predicate Synced(m: Modal) {
    Normal(m.choices) == Init(m.url)
  }

  /** A fresh mount is in step with the URL, and "Apply" and a remount bring
      the modal back in step, in either version. */
  lemma ApplySyncs(p: Params, m: Modal)
    requires m.open
    ensures Synced(Mount(p))
    ensures Synced(Step(m, ApplyPressed)) && Synced(StepIntended(m, ApplyPressed))
    ensures Synced(Step(m, Remount)) && Synced(StepIntended(m, Remount))
  {
    ApplyThenInit(m.choices, m.url);
    assert Normal(Normal(m.choices)) == Normal(m.choices);
  }

  /** With "Clear" resetting the choices, the modal is in step with the
      cleared URL, and pressing "Apply" next writes no filter key back. */
  lemma IntendedClearThenApply(m: Modal)
    requires m.open
    ensures Synced(StepIntended(m, ClearPressed))
    ensures var r := StepIntended(StepIntended(StepIntended(m, ClearPressed), Open), ApplyPressed);
            r.url == Clear(m.url) - {"page"}
  {
    ClearResets(m.url);
    var q := Clear(m.url);
    var r := Apply(Defaults, q);
    assert forall k :: Managed(k) ==> k !in q;
    assert forall k :: k in r <==> k in q - {"page"};
    assert forall k :: k in r ==> r[k] == q[k];
  }

  /** As written, "Clear" keeps the choices: choose status "alive", apply,
      reopen and clear. The URL no longer holds a status, but the reopened
      modal still shows "alive", and "Apply" writes it back (no error
      banner comes between, so the modal is never remounted). */
  lemma ClearShowsStaleChoice()
    ensures var alive := Defaults.(status := "alive");
            var m1 := Step(Step(Step(Mount(map[]), Open), Choose(alive)), ApplyPressed);
            var m2 := Step(Step(Step(m1, Open), ClearPressed), Open);
            && m2.url == map[] && m2.choices == alive && !Synced(m2)
            && Step(m2, ApplyPressed).url == map["status" := "alive"]
  {
    var alive := Defaults.(status := "alive");
    assert Init(map[]) == Defaults;
    var q := Apply(alive, map[]);
    assert Get(q, "status") == Some("alive");
    assert forall k :: k != "status" ==> k !in q;
    assert q == map["status" := "alive"];
    assert Clear(q) == map[];
    assert Init(map[]).status == "";
  }
}

=== FILE: overlay.dfy ===
/** The overlay store of `UserInteractionsProvider`: favourites, hidden
    characters and per-character comment threads, with its five reducers.
    Every reducer is a pure `prev => next` transition; `...prev` is modelled by
    datatype update, so the fields a reducer does not name stay as they were. */
module Overlay {
  import Seqs

  /** A comment as stored: `createdAt` is an opaque ISO-8601 timestamp. */
  datatype Comment = Comment(id: string, text: string, createdAt: string)

  /** The persisted aggregate. The provider names the hidden list
      `hiddenCharacters`; the shared context type calls it `deletedCharacters`.
      This model keeps the single list `hidden`. */
  datatype StoredData = StoredData(
    favorites: seq<string>,
    hidden: seq<string>,
    comments: map<string, seq<Comment>>)

  /** `INITIAL_DATA`. */
  const Initial := StoredData([], [], map[])

  /** A character's thread as consumers read it: an absent thread is empty. */
  function Thread(s: StoredData, characterId: string): seq<Comment> {
    if characterId in s.comments then s.comments[characterId] else []
  }

  // ---------------------------------------------------------------------------
  // Sequence helpers: the `filter` and `map` calls of the reducers

  /** `ids.filter((id) => id !== x)`. */
  function Without(ids: seq<string>, x: string): (r: seq<string>)
    ensures forall y :: y in r <==> y in ids && y != x
    ensures |r| <= |ids|
    ensures x !in ids ==> r == ids
  {
    if |ids| == 0 then []
    else (if ids[0] == x then [] else [ids[0]]) + Without(ids[1..], x)
  }

  /** Filtering commutes with concatenation: survivors keep their relative order. */
  lemma {:induction false} WithoutAppend(a: seq<string>, b: seq<string>, x: string)
    ensures Without(a + b, x) == Without(a, x) + Without(b, x)
    decreases |a|
  {
    if |a| > 0 {
      assert (a + b)[0] == a[0] && (a + b)[1..] == a[1..] + b;
      WithoutAppend(a[1..], b, x);
      var h := if a[0] == x then [] else [a[0]];
      assert Without(a + b, x) == h + (Without(a[1..], x) + Without(b, x));
      assert h + (Without(a[1..], x) + Without(b, x)) == (h + Without(a[1..], x)) + Without(b, x);
    } else {
      assert a + b == b;
    }
  }

  /** The set of comment ids in a thread. */
  function IdSet(t: seq<Comment>): set<string> {
    set c | c in t :: c.id
  }

  /** No two comments of a thread share an id. */
  predicate Distinct(t: seq<Comment>) {
    forall i, j :: 0 <= i < j < |t| ==> t[i].id != t[j].id
  }

  /** `thread.filter((c) => c.id !== commentId)`. */
  function DropComment(t: seq<Comment>, commentId: string): (r: seq<Comment>)
    ensures forall c :: c in r <==> c in t && c.id != commentId
    ensures |r| <= |t|
    ensures commentId !in IdSet(t) ==> r == t
  {
    if |t| == 0 then []
    else
      assert t == [t[0]] + t[1..];
      (if t[0].id == commentId then [] else [t[0]]) + DropComment(t[1..], commentId)
  }

  /** Deletion cannot create duplicate ids. */
  lemma {:induction false} DropCommentDistinct(t: seq<Comment>, commentId: string)
    requires Distinct(t)
    ensures Distinct(DropComment(t, commentId))
    decreases |t|
  {
    if |t| > 0 {
      assert t == [t[0]] + t[1..];
      DropCommentDistinct(t[1..], commentId);
      var rest := DropComment(t[1..], commentId);
      if t[0].id != commentId {
        var r := [t[0]] + rest;
        forall i, j | 0 <= i < j < |r| ensures r[i].id != r[j].id {
          if i == 0 {
            assert r[j] in t[1..];
          }
        }
      }
    }
  }

  /** Deletion keeps the survivors in their original relative order. */
  lemma {:induction false} DropCommentAppend(a: seq<Comment>, b: seq<Comment>, commentId: string)
    ensures DropComment(a + b, commentId) == DropComment(a, commentId) + DropComment(b, commentId)
    decreases |a|
  {
    if |a| > 0 {
      assert (a + b)[0] == a[0] && (a + b)[1..] == a[1..] + b;
      DropCommentAppend(a[1..], b, commentId);
      var h := if a[0].id == commentId then [] else [a[0]];
      var x, y := DropComment(a[1..], commentId), DropComment(b, commentId);
      assert DropComment(a + b, commentId) == h + DropComment(a[1..] + b, commentId);
      assert DropComment(a, commentId) == h + x;
      Seqs.ConcatAssoc(h, x, y);
    } else {
      assert a + b == b;
    }
  }

  /** In a thread without duplicate ids, deleting a present id removes exactly one comment. */
  lemma {:induction false} DropCommentRemovesOne(t: seq<Comment>, commentId: string)
    requires Distinct(t) && commentId in IdSet(t)
    ensures |DropComment(t, commentId)| == |t| - 1
    decreases |t|
  {
    assert t == [t[0]] + t[1..];
    if t[0].id == commentId {
      assert commentId !in IdSet(t[1..]);
      assert DropComment(t, commentId) == DropComment(t[1..], commentId);
    } else {
      assert commentId in IdSet(t[1..]);
      DropCommentRemovesOne(t[1..], commentId);
    }
  }

  /** `thread.map((c) => c.id === commentId ? { ...c, text } : c)`. */
  function EditText(t: seq<Comment>, commentId: string, text: string): (r: seq<Comment>)
    ensures |r| == |t|
    ensures forall i :: 0 <= i < |t| ==>
              && r[i].id == t[i].id
              && r[i].createdAt == t[i].createdAt
              && r[i].text == (if t[i].id == commentId then text else t[i].text)
    ensures IdSet(r) == IdSet(t)
    ensures commentId !in IdSet(t) ==> r == t
  {
    var r := seq(|t|, i requires 0 <= i < |t| => if t[i].id == commentId then t[i].(text := text) else t[i]);
    assert forall c :: c in r ==> exists i :: 0 <= i < |t| && c == r[i];
    assert forall c :: c in t ==> exists i :: 0 <= i < |t| && c == t[i];
    r
  }

  // ---------------------------------------------------------------------------
  // Store-wide comment-id uniqueness

  /** Every comment id anywhere in the store. */
  function AllCommentIds(s: StoredData): set<string> {
    set k, c | k in s.comments && c in s.comments[k] :: c.id
  }

  /** A comment's id is among the store's ids. */
  lemma CommentIdListed(s: StoredData, k: string, c: Comment)
    requires k in s.comments && c in s.comments[k]
    ensures c.id in AllCommentIds(s)
  {
  }

  /** Comment ids are unique within each thread and across threads. */
  predicate WellFormed(s: StoredData) {
    && (forall k :: k in s.comments ==> Distinct(s.comments[k]))
    && (forall k1, k2 :: k1 in s.comments && k2 in s.comments && k1 != k2 ==>
          IdSet(s.comments[k1]) !! IdSet(s.comments[k2]))
  }

  /** Replacing one thread by one whose ids are a distinct subset of the old
      ones (plus, possibly, an id used nowhere) keeps the store well formed. */
  lemma ReplaceThreadWellFormed(s: StoredData, characterId: string, t: seq<Comment>)
    requires WellFormed(s)
    requires Distinct(t)
    requires forall x :: x in IdSet(t) ==> x in IdSet(Thread(s, characterId)) || x !in AllCommentIds(s)
    ensures WellFormed(s.(comments := s.comments[characterId := t]))
  {
    var m := s.comments[characterId := t];
    forall k1, k2 | k1 in m && k2 in m && k1 != k2
      ensures IdSet(m[k1]) !! IdSet(m[k2])
    {
    }
  }

  // ---------------------------------------------------------------------------
  // The reducers

  /** `toggleFavorite`: removes every occurrence of a present id, appends an absent one. */
  function ToggleFavorite(s: StoredData, id: string): (r: StoredData)
    ensures id in r.favorites <==> id !in s.favorites
    ensures forall x :: x != id ==> (x in r.favorites <==> x in s.favorites)
    ensures id !in s.favorites ==> r.favorites == s.favorites + [id]
    ensures id in s.favorites ==> |r.favorites| < |s.favorites|
    ensures r.hidden == s.hidden && r.comments == s.comments
  {
    if id in s.favorites then
      WithoutShrinks(s.favorites, id);
      s.(favorites := Without(s.favorites, id))
    else s.(favorites := s.favorites + [id])
  }

  /** Removing a present id makes the list strictly shorter. */
  lemma WithoutShrinks(ids: seq<string>, x: string)
    requires x in ids
    ensures |Without(ids, x)| < |ids|
  {
    var i :| 0 <= i < |ids| && ids[i] == x;
    assert ids == ids[..i] + [x] + ids[i + 1..];
    WithoutAppend(ids[..i] + [x], ids[i + 1..], x);
    WithoutAppend(ids[..i], [x], x);
  }

  /** `hideCharacter`: appends the id (no de-duplication). */
  function HideCharacter(s: StoredData, id: string): (r: StoredData)
    ensures id in r.hidden
    ensures |r.hidden| == |s.hidden| + 1 && r.hidden[..|s.hidden|] == s.hidden
    ensures forall x :: x in r.hidden <==> x in s.hidden || x == id
    ensures r.favorites == s.favorites && r.comments == s.comments
  {
    s.(hidden := s.hidden + [id])
  }

  /** `addComment`: appends a comment with the text as given (the store does not
      trim), creating the thread if absent. `freshId` stands for
      `crypto.randomUUID()` and `now` for the ISO timestamp. */
  function AddComment(s: StoredData, characterId: string, text: string, freshId: string, now: string): (r: StoredData)
    requires freshId !in AllCommentIds(s)
    ensures characterId in r.comments
    ensures |Thread(r, characterId)| == |Thread(s, characterId)| + 1
    ensures Thread(r, characterId)[..|Thread(s, characterId)|] == Thread(s, characterId)
    ensures Thread(r, characterId)[|Thread(s, characterId)|] == Comment(freshId, text, now)
    ensures forall k :: k != characterId ==> (k in r.comments <==> k in s.comments) && Thread(r, k) == Thread(s, k)
    ensures r.favorites == s.favorites && r.hidden == s.hidden
    ensures AllCommentIds(r) == AllCommentIds(s) + {freshId}
    ensures WellFormed(s) ==> WellFormed(r)
  {
    var t := Thread(s, characterId) + [Comment(freshId, text, now)];
    AppendFresh(s, characterId, Comment(freshId, text, now));
    s.(comments := s.comments[characterId := t])
  }

  /** Appending a comment with an unused id to a thread adds exactly that id
      and keeps the store well formed. */
  lemma AppendFresh(s: StoredData, characterId: string, c: Comment)
    requires c.id !in AllCommentIds(s)
    ensures var r := s.(comments := s.comments[characterId := Thread(s, characterId) + [c]]);
            && AllCommentIds(r) == AllCommentIds(s) + {c.id}
            && (WellFormed(s) ==> WellFormed(r))
  {
    var prior := Thread(s, characterId);
    var t := prior + [c];
    var r := s.(comments := s.comments[characterId := t]);
    assert c.id !in IdSet(prior);
    forall x | x in AllCommentIds(s) ensures x in AllCommentIds(r) {
      var k, d: Comment :| k in s.comments && d in s.comments[k] && d.id == x;
      if k == characterId { assert d in t; } else { assert d in r.comments[k]; }
      CommentIdListed(r, k, d);
    }
    assert c in r.comments[characterId];
    if WellFormed(s) {
      assert Distinct(prior);
      forall i, j | 0 <= i < j < |t| ensures t[i].id != t[j].id {
        assert t[i] == prior[i];
        if j == |prior| {
          assert t[i] in prior;
          assert t[i].id in IdSet(prior);
        } else {
          assert t[j] == prior[j];
        }
      }
      ReplaceThreadWellFormed(s, characterId, t);
    }
  }

  /** `editComment`: replaces the text of the comments with a matching id, in
      place. An absent thread becomes `[]`. */
  function EditComment(s: StoredData, characterId: string, commentId: string, text: string): (r: StoredData)
    ensures characterId in r.comments
    ensures |Thread(r, characterId)| == |Thread(s, characterId)|
    ensures forall i :: 0 <= i < |Thread(s, characterId)| ==>
              var before, after := Thread(s, characterId)[i], Thread(r, characterId)[i];
              && after.id == before.id && after.createdAt == before.createdAt
              && after.text == (if before.id == commentId then text else before.text)
    ensures commentId !in IdSet(Thread(s, characterId)) ==> Thread(r, characterId) == Thread(s, characterId)
    ensures forall k :: k != characterId ==> (k in r.comments <==> k in s.comments) && Thread(r, k) == Thread(s, k)
    ensures r.favorites == s.favorites && r.hidden == s.hidden
    ensures WellFormed(s) ==> WellFormed(r)
  {
    var t := EditText(Thread(s, characterId), commentId, text);
    ReplaceThreadKeepsIds(s, characterId, t);
    s.(comments := s.comments[characterId := t])
  }

  /** Replacing a thread by one with the same ids, pairwise, keeps the store well formed. */
  lemma ReplaceThreadKeepsIds(s: StoredData, characterId: string, t: seq<Comment>)
    requires |t| == |Thread(s, characterId)|
    requires forall i :: 0 <= i < |t| ==> t[i].id == Thread(s, characterId)[i].id
    ensures WellFormed(s) ==> WellFormed(s.(comments := s.comments[characterId := t]))
  {
    if WellFormed(s) {
      assert Distinct(Thread(s, characterId));
      forall x | x in IdSet(t) ensures x in IdSet(Thread(s, characterId)) {
        var c: Comment :| c in t && c.id == x;
        var i :| 0 <= i < |t| && t[i] == c;
        assert Thread(s, characterId)[i] in Thread(s, characterId);
      }
      ReplaceThreadWellFormed(s, characterId, t);
    }
  }

  /** `deleteComment`: removes the comments with a matching id. An absent
      thread becomes `[]`. */
  function DeleteComment(s: StoredData, characterId: string, commentId: string): (r: StoredData)
    ensures characterId in r.comments
    ensures forall c :: c in Thread(r, characterId) <==> c in Thread(s, characterId) && c.id != commentId
    ensures commentId !in IdSet(Thread(s, characterId)) ==> Thread(r, characterId) == Thread(s, characterId)
    ensures WellFormed(s) && commentId in IdSet(Thread(s, characterId)) ==>
              |Thread(r, characterId)| == |Thread(s, characterId)| - 1
    ensures forall k :: k != characterId ==> (k in r.comments <==> k in s.comments) && Thread(r, k) == Thread(s, k)
    ensures r.favorites == s.favorites && r.hidden == s.hidden
    ensures WellFormed(s) ==> WellFormed(r)
  {
    var t := DropComment(Thread(s, characterId), commentId);
    DropKeepsWellFormed(s, characterId, commentId);
    s.(comments := s.comments[characterId := t])
  }

  lemma DropKeepsWellFormed(s: StoredData, characterId: string, commentId: string)
    ensures var t := DropComment(Thread(s, characterId), commentId);
            && (WellFormed(s) ==> WellFormed(s.(comments := s.comments[characterId := t])))
            && (WellFormed(s) && commentId in IdSet(Thread(s, characterId)) ==> |t| == |Thread(s, characterId)| - 1)
  {
    if WellFormed(s) {
      var t := DropComment(Thread(s, characterId), commentId);
      assert Distinct(Thread(s, characterId));
      DropCommentDistinct(Thread(s, characterId), commentId);
      ReplaceThreadWellFormed(s, characterId, t);
      if commentId in IdSet(Thread(s, characterId)) {
        DropCommentRemovesOne(Thread(s, characterId), commentId);
      }
    }
  }

  // ---------------------------------------------------------------------------
  // Properties relating several calls

  /** Toggling twice restores membership; from an absent id it restores the exact state. */
  lemma ToggleTwice(s: StoredData, id: string)
    ensures forall x :: x in ToggleFavorite(ToggleFavorite(s, id), id).favorites <==> x in s.favorites
    ensures id !in s.favorites ==> ToggleFavorite(ToggleFavorite(s, id), id) == s
  {
    if id !in s.favorites {
      WithoutAppend(s.favorites, [id], id);
    }
  }

  /** Removing a favourite keeps the other favourites in their order: for any
      split of the list, the result is the split of the results. */
  lemma ToggleRemoveKeepsOrder(s: StoredData, id: string, a: seq<string>, b: seq<string>)
    requires id in s.favorites && s.favorites == a + b
    ensures ToggleFavorite(s, id).favorites == Without(a, id) + Without(b, id)
  {
    WithoutAppend(a, b, id);
  }

  /** Hiding an id twice hides the same ids as hiding it once. */
  lemma HideIdempotent(s: StoredData, id: string)
    ensures forall x :: x in HideCharacter(HideCharacter(s, id), id).hidden <==> x in HideCharacter(s, id).hidden
  {
  }

  /** The add / edit / delete scenario: a new comment is read back with its
      text, edited in place, then deleted, leaving an empty thread. */
  lemma AddEditDelete(s: StoredData, characterId: string, freshId: string, now: string)
    requires WellFormed(s) && freshId !in AllCommentIds(s)
    requires Thread(s, characterId) == []
    ensures var s1 := AddComment(s, characterId, "Test comment", freshId, now);
            && Thread(s1, characterId) == [Comment(freshId, "Test comment", now)]
            && var s2 := EditComment(s1, characterId, freshId, "Updated comment");
            && Thread(s2, characterId) == [Comment(freshId, "Updated comment", now)]
            && Thread(DeleteComment(s2, characterId, freshId), characterId) == []
  {
    var s1 := AddComment(s, characterId, "Test comment", freshId, now);
    var s2 := EditComment(s1, characterId, freshId, "Updated comment");
    assert Thread(s2, characterId)[0].id == freshId;
  }

  // ---------------------------------------------------------------------------
  // The reducers as one dispatch

  /** A user action on the store. */
  datatype Action =
    | Toggle(id: string)
    | Hide(id: string)
    | Add(characterId: string, text: string)
    | Edit(characterId: string, commentId: string, text: string)
    | Delete(characterId: string, commentId: string)

  /** Applies one action; `freshId` and `now` are consumed only by `Add`.
      Each action touches only its own field, and no action breaks comment-id uniqueness. */
  function Reduce(s: StoredData, a: Action, freshId: string, now: string): (r: StoredData)
    requires a.Add? ==> freshId !in AllCommentIds(s)
    ensures (a.Toggle? || a.Hide?) ==> r.comments == s.comments
    ensures !a.Toggle? ==> r.favorites == s.favorites
    ensures !a.Hide? ==> r.hidden == s.hidden
    ensures a.Hide? ==> a.id in r.hidden
    ensures a.Toggle? ==> (a.id in r.favorites <==> a.id !in s.favorites)
    ensures WellFormed(s) ==> WellFormed(r)
  {
    match a
    case Toggle(id) => ToggleFavorite(s, id)
    case Hide(id) => HideCharacter(s, id)
    case Add(cid, text) => AddComment(s, cid, text, freshId, now)
    case Edit(cid, commentId, text) => EditComment(s, cid, commentId, text)
    case Delete(cid, commentId) => DeleteComment(s, cid, commentId)
  }
}

=== FILE: params.dfy ===
/** URL query parameters as a string-keyed map, with the `URLSearchParams`
    operations the components use. Repeated keys and key order are not modelled. */
module Params {
  import opened Wrappers

  type Params = map<string, string>

  /** `params.get(key)`, with `null` as None. */
  function Get(p: Params, key: string): Option<string> {
    if key in p then Some(p[key]) else None
  }

  /** `params.get(key) || fallback`: an absent or empty value reads as `fallback`. */
  function GetOr(p: Params, key: string, fallback: string): (r: string)
    ensures r == fallback || (key in p && r == p[key] && r != "")
    ensures key in p && p[key] != "" ==> r == p[key]
  {
    if key in p && p[key] != "" then p[key] else fallback
  }

  /** `if (value) params.set(key, value); else params.delete(key);` */
  function SetOrDelete(p: Params, key: string, value: string): (r: Params)
    ensures value != "" ==> Get(r, key) == Some(value)
    ensures value == "" ==> key !in r
    ensures forall k :: k != key ==> Get(r, k) == Get(p, k)
  {
    if value != "" then p[key := value] else p - {key}
  }

  /** `params.delete(key)`. */
  function Delete(p: Params, key: string): (r: Params)
    ensures key !in r
    ensures forall k :: k != key ==> Get(r, k) == Get(p, k)
  {
    p - {key}
  }
}

=== FILE: persistence.dfy ===
/** How the provider loads and saves the overlay store. `localStorage` is a
    string map; `JSON.parse` is a `decode` that yields None where it would
    throw, and `JSON.stringify` is an `encode`. Neither is given a body here:
    both are parameters. */
module Persistence {
  import opened Wrappers
  import opened Overlay

  type Storage = map<string, string>

  /** `localStorage.getItem(key)`, with `null` as None. */
  function GetItem(storage: Storage, key: string): Option<string> {
    if key in storage then Some(storage[key]) else None
  }

  /** The lazy initial state: an absent or empty entry, or one that does not
      parse, gives `INITIAL_DATA`; nothing is thrown. The parsed value is
      taken as is, without shape validation. */
  function Load(storage: Storage, key: string, decode: string -> Option<StoredData>): (r: StoredData)
    ensures r == Initial || (key in storage && decode(storage[key]) == Some(r))
    ensures key !in storage ==> r == Initial
    ensures key in storage && storage[key] == "" ==> r == Initial
    ensures key in storage && storage[key] != "" && decode(storage[key]).Some? ==> r == decode(storage[key]).value
    ensures key in storage && storage[key] != "" && decode(storage[key]).None? ==> r == Initial
  {
    match GetItem(storage, key)
    case Some(stored) =>
      if stored != "" then decode(stored).GetOr(Initial) else Initial
    case None => Initial
  }

  /** The save effect: the whole state is written under one key; every other key is untouched. */
  function Save(storage: Storage, key: string, data: StoredData, encode: StoredData -> string): (r: Storage)
    ensures GetItem(r, key) == Some(encode(data))
    ensures forall k :: k != key ==> GetItem(r, k) == GetItem(storage, k)
  {
    storage[key := encode(data)]
  }

  /** `encode` and `decode` are inverse, and an encoding is never the empty
      string (`JSON.stringify` of an object starts with a brace). */
  ghost predicate Codec(encode: StoredData -> string, decode: string -> Option<StoredData>) {
    forall d :: decode(encode(d)) == Some(d) && encode(d) != ""
  }

  /** Loading what was saved returns it, structure and order included. */
  lemma LoadSave(storage: Storage, key: string, data: StoredData,
                 encode: StoredData -> string, decode: string -> Option<StoredData>)
    requires Codec(encode, decode)
    ensures Load(Save(storage, key, data, encode), key, decode) == data
  {
    assert decode(encode(data)) == Some(data);
  }

  /** A running provider: the in-memory state and the storage it writes to. */
  datatype Session = Session(data: StoredData, storage: Storage)

  /** The storage holds the encoding of the current state. */
  predicate Persisted(s: Session, key: string, encode: StoredData -> string) {
    GetItem(s.storage, key) == Some(encode(s.data))
  }

  /** Mounting the provider: load, then the save effect runs once for the initial state. */
  function Start(storage: Storage, key: string,
                 encode: StoredData -> string, decode: string -> Option<StoredData>): (r: Session)
    ensures Persisted(r, key, encode)
    ensures r.data == Load(storage, key, decode)
    ensures r.data == Initial || (key in storage && decode(storage[key]) == Some(r.data))
    ensures forall k :: k != key ==> GetItem(r.storage, k) == GetItem(storage, k)
  {
    var data := Load(storage, key, decode);
    Session(data, Save(storage, key, data, encode))
  }

  /** One state change: apply the reducer, then the save effect writes the whole new state. */
  function Step(s: Session, a: Action, freshId: string, now: string,
                key: string, encode: StoredData -> string): (r: Session)
    requires a.Add? ==> freshId !in AllCommentIds(s.data)
    ensures r.data == Reduce(s.data, a, freshId, now)
    ensures Persisted(r, key, encode)
    ensures forall k :: k != key ==> GetItem(r.storage, k) == GetItem(s.storage, k)
    ensures WellFormed(s.data) ==> WellFormed(r.data)
  {
    var data := Reduce(s.data, a, freshId, now);
    Session(data, Save(s.storage, key, data, encode))
  }

  /** Read-after-write: after any state change, reloading gives back the current state. */
  lemma ReloadAfterStep(s: Session, a: Action, freshId: string, now: string, key: string,
                        encode: StoredData -> string, decode: string -> Option<StoredData>)
    requires Codec(encode, decode)
    requires a.Add? ==> freshId !in AllCommentIds(s.data)
    ensures var r := Step(s, a, freshId, now, key, encode);
            Load(r.storage, key, decode) == r.data
  {
    var r := Step(s, a, freshId, now, key, encode);
    LoadSave(s.storage, key, r.data, encode, decode);
  }

  /** A corrupt entry is replaced on mount by the encoding of `INITIAL_DATA`. */
  lemma CorruptEntryIsReset(storage: Storage, key: string,
                            encode: StoredData -> string, decode: string -> Option<StoredData>)
    requires key in storage && decode(storage[key]).None?
    ensures Start(storage, key, encode, decode).data == Initial
    ensures GetItem(Start(storage, key, encode, decode).storage, key) == Some(encode(Initial))
  {
  }
}

=== FILE: processing.dfy ===
/** `useCharacterProcessing`: drops null and hidden entries, optionally sorts
    by name, and splits the result into starred and other characters. */
module Processing {
  import opened Wrappers
  import opened Catalog
  import opened Sorting
  import Collation
  import Seqs

  /** The `filter` step: non-null entries whose `id || ""` is not hidden. */
  function Visible(entries: seq<Option<Character>>, hidden: seq<string>): (r: seq<Character>)
    ensures |r| <= |entries|
  {
    if |entries| == 0 then []
    else
      assert entries == [entries[0]] + entries[1..];
      Keep(entries[0], hidden) + Visible(entries[1..], hidden)
  }

  /** One entry's contribution to the filter. */
  function Keep(e: Option<Character>, hidden: seq<string>): seq<Character> {
    match e
    case Some(c) => if IdKey(c) !in hidden then [c] else []
    case None => []
  }

  /** The filter keeps exactly the non-null entries whose id is not hidden. */
  lemma {:induction false} VisibleMembers(entries: seq<Option<Character>>, hidden: seq<string>)
    ensures forall c :: c in Visible(entries, hidden) <==> Some(c) in entries && IdKey(c) !in hidden
    decreases |entries|
  {
    if |entries| > 0 {
      VisibleMembers(entries[1..], hidden);
      assert entries == [entries[0]] + entries[1..];
    }
  }

  /** The filter keeps input order: it commutes with concatenation. */
  lemma {:induction false} VisibleAppend(a: seq<Option<Character>>, b: seq<Option<Character>>, hidden: seq<string>)
    ensures Visible(a + b, hidden) == Visible(a, hidden) + Visible(b, hidden)
    decreases |a|
  {
    if |a| > 0 {
      assert (a + b)[0] == a[0] && (a + b)[1..] == a[1..] + b;
      VisibleAppend(a[1..], b, hidden);
      var h := Keep(a[0], hidden);
      assert Visible(a + b, hidden) == h + Visible(a[1..] + b, hidden);
      assert Visible(a, hidden) == h + Visible(a[1..], hidden);
      Seqs.ConcatAssoc(h, Visible(a[1..], hidden), Visible(b, hidden));
    } else {
      assert a + b == b;
    }
  }

  /** A JavaScript string is truthy when it is present and non-empty. */
  predicate Truthy(v: Option<string>) {
    v.Some? && v.value != ""
  }

  /** `filteredCharacters`: `results` is `data?.characters?.results`, with None
      for a missing list (`|| []`); `sortOrder` is the raw `sort` parameter. */
  function FilteredCharacters(results: Option<seq<Option<Character>>>, hidden: seq<string>,
                              sortOrder: Option<string>): (r: seq<Character>)
    ensures var v := Visible(results.GetOr([]), hidden);
            && multiset(r) == multiset(v)
            && (!Truthy(sortOrder) ==> r == v)
            && (Truthy(sortOrder) ==> Sorted(OrderOf(sortOrder.value), r))
            && (Truthy(sortOrder) ==> forall k :: WithKey(OrderOf(sortOrder.value), r, k) == WithKey(OrderOf(sortOrder.value), v, k))
            && (Truthy(sortOrder) && OrderOf(sortOrder.value).Unordered? ==> r == v)
  {
    var v := Visible(results.GetOr([]), hidden);
    if Truthy(sortOrder) then
      var o := OrderOf(sortOrder.value);
      SortStableAll(o, v);
      if o.Unordered? then UnorderedKeepsOrder(v); Sort(o, v) else Sort(o, v)
    else v
  }

  lemma SortStableAll(o: Order, s: seq<Character>)
    ensures forall k :: WithKey(o, Sort(o, s), k) == WithKey(o, s, k)
  {
    forall k ensures WithKey(o, Sort(o, s), k) == WithKey(o, s, k) {
      SortStable(o, s, k);
    }
  }

  /** The two groups. */
  datatype Groups = Groups(starred: seq<Character>, others: seq<Character>)

  /** The `forEach` partition: entries without an id are skipped; the rest go
      to `starred` when their id is a favourite and to `others` otherwise. */
  function Partition(filtered: seq<Character>, favorites: seq<string>): (g: Groups)
    ensures forall c :: c in g.starred <==> c in filtered && HasId(c) && IdKey(c) in favorites
    ensures forall c :: c in g.others <==> c in filtered && HasId(c) && IdKey(c) !in favorites
    ensures |g.starred| + |g.others| == |WithId(filtered)|
  {
    if |filtered| == 0 then Groups([], [])
    else
      var c := filtered[0];
      var rest := Partition(filtered[1..], favorites);
      assert filtered == [c] + filtered[1..];
      if !HasId(c) then rest
      else if IdKey(c) in favorites then Groups([c] + rest.starred, rest.others)
      else Groups(rest.starred, [c] + rest.others)
  }

  /** The entries that have an id, in order. */
  function WithId(s: seq<Character>): (r: seq<Character>)
    ensures forall c :: c in r <==> c in s && HasId(c)
  {
    if |s| == 0 then []
    else
      assert s == [s[0]] + s[1..];
      (if HasId(s[0]) then [s[0]] else []) + WithId(s[1..])
  }

  /** Both groups keep the filtered order: partitioning commutes with concatenation. */
  lemma {:induction false} PartitionAppend(a: seq<Character>, b: seq<Character>, favorites: seq<string>)
    ensures Partition(a + b, favorites).starred == Partition(a, favorites).starred + Partition(b, favorites).starred
    ensures Partition(a + b, favorites).others == Partition(a, favorites).others + Partition(b, favorites).others
    decreases |a|
  {
    if |a| > 0 {
      assert (a + b)[0] == a[0] && (a + b)[1..] == a[1..] + b;
      PartitionAppend(a[1..], b, favorites);
      var pa, pb := Partition(a[1..], favorites), Partition(b, favorites);
      Seqs.ConcatAssoc([a[0]], pa.starred, pb.starred);
      Seqs.ConcatAssoc([a[0]], pa.others, pb.others);
    } else {
      assert a + b == b;
    }
  }

  /** The outputs of `useCharacterProcessing`. */
  datatype Processed = Processed(filtered: seq<Character>, starred: seq<Character>, others: seq<Character>)

  function UseCharacterProcessing(results: Option<seq<Option<Character>>>, hidden: seq<string>,
                                  favorites: seq<string>, sortOrder: Option<string>): (p: Processed)
    ensures forall c :: c in p.filtered <==> Some(c) in results.GetOr([]) && IdKey(c) !in hidden
    ensures forall c :: c in p.starred <==> c in p.filtered && HasId(c) && IdKey(c) in favorites
    ensures forall c :: c in p.others <==> c in p.filtered && HasId(c) && IdKey(c) !in favorites
    ensures |p.starred| + |p.others| == |WithId(p.filtered)|
  {
    var filtered := FilteredCharacters(results, hidden, sortOrder);
    VisibleMembers(results.GetOr([]), hidden);
    assert forall c :: c in filtered <==> c in multiset(filtered);
    var g := Partition(filtered, favorites);
    Processed(filtered, g.starred, g.others)
  }

  /** A hidden id reaches neither group, whatever the sort and favourites. */
  lemma HiddenNeverShown(results: Option<seq<Option<Character>>>, hidden: seq<string>,
                         favorites: seq<string>, sortOrder: Option<string>, c: Character)
    requires IdKey(c) in hidden
    ensures var p := UseCharacterProcessing(results, hidden, favorites, sortOrder);
            c !in p.filtered && c !in p.starred && c !in p.others
  {
  }

  lemma VisibleCons(e: Option<Character>, rest: seq<Option<Character>>, hidden: seq<string>)
    ensures Visible([e] + rest, hidden) == Keep(e, hidden) + Visible(rest, hidden)
  {
    assert ([e] + rest)[1..] == rest;
  }

  lemma PartitionCons(c: Character, rest: seq<Character>, favorites: seq<string>)
    ensures var g, h := Partition([c] + rest, favorites), Partition(rest, favorites);
            if !HasId(c) then g == h
            else if IdKey(c) in favorites then g == Groups([c] + h.starred, h.others)
            else g == Groups(h.starred, [c] + h.others)
  {
    assert ([c] + rest)[1..] == rest;
  }

  // The three characters of the stability example.
  const T1 := Character(Some("1"), Some("b"))
  const T2 := Character(Some("2"), Some("a"))
  const T3 := Character(Some("3"), Some("a"))

  lemma TieVisible()
    ensures Visible([Some(T1), Some(T2), Some(T3)], []) == [T1, T2, T3]
  {
    VisibleCons(Some(T3), [], []);
    assert Visible([Some(T3)], []) == [T3];
    VisibleCons(Some(T2), [Some(T3)], []);
    assert Visible([Some(T2), Some(T3)], []) == [T2, T3];
    VisibleCons(Some(T1), [Some(T2), Some(T3)], []);
  }

  lemma TieSortFirst()
    ensures Sort(Asc, [T1]) == [T1]
  {
    assert [T1][..0] == [];
  }

  lemma TieSortSecond()
    ensures Sort(Asc, [T1, T2]) == [T2, T1]
  {
    assert [T1, T2][..1] == [T1];
    TieSortFirst();
    assert Collation.Lt("a", "b");
  }

  lemma TieInsertThird()
    ensures Insert(Asc, T3, [T2, T1]) == [T2, T3, T1]
  {
    assert !Collation.Lt("a", "a");
    assert Collation.Lt("a", "b");
    assert [T2, T1][1..] == [T1];
  }

  lemma TieSort()
    ensures Sort(Asc, [T1, T2, T3]) == [T2, T3, T1]
  {
    assert [T1, T2, T3][..2] == [T1, T2];
    TieSortSecond();
    TieInsertThird();
  }

  /** Ties keep their input order: `[1:"b", 2:"a", 3:"a"]` sorted ascending is `2, 3, 1`. */
  lemma StableSortExample()
    ensures FilteredCharacters(Some([Some(T1), Some(T2), Some(T3)]), [], Some("asc")) == [T2, T3, T1]
  {
    TieVisible();
    TieSort();
  }

  // The four characters of the partition example.
  const P1 := Character(Some("1"), None)
  const P2 := Character(Some("2"), None)
  const P3 := Character(Some("3"), None)
  const P4 := Character(Some("4"), None)

  lemma ScenarioVisibleTail()
    ensures Visible([Some(P3), Some(P4)], ["3"]) == [P4]
  {
    VisibleCons(Some(P4), [], ["3"]);
    assert Visible([Some(P4)], ["3"]) == [P4];
    VisibleCons(Some(P3), [Some(P4)], ["3"]);
  }

  lemma ScenarioVisible()
    ensures Visible([Some(P1), Some(P2), Some(P3), Some(P4)], ["3"]) == [P1, P2, P4]
  {
    ScenarioVisibleTail();
    VisibleCons(Some(P2), [Some(P3), Some(P4)], ["3"]);
    assert Keep(Some(P2), ["3"]) == [P2];
    assert Visible([Some(P2), Some(P3), Some(P4)], ["3"]) == [P2, P4];
    VisibleCons(Some(P1), [Some(P2), Some(P3), Some(P4)], ["3"]);
    assert Keep(Some(P1), ["3"]) == [P1];
  }

  lemma ScenarioPartitionTail()
    ensures Partition([P2, P4], ["2"]) == Groups([P2], [P4])
  {
    PartitionCons(P4, [], ["2"]);
    assert Partition([P4], ["2"]) == Groups([], [P4]);
    PartitionCons(P2, [P4], ["2"]);
  }

  lemma ScenarioPartition()
    ensures Partition([P1, P2, P4], ["2"]) == Groups([P2], [P1, P4])
  {
    ScenarioPartitionTail();
    PartitionCons(P1, [P2, P4], ["2"]);
    assert IdKey(P1) !in ["2"];
  }

  /** Hidden `3`, favourite `2`, catalogue `1..4`, no sort: starred `[2]`, others `[1, 4]`. */
  lemma PartitionExample()
    ensures var p := UseCharacterProcessing(Some([Some(P1), Some(P2), Some(P3), Some(P4)]), ["3"], ["2"], None);
            p.starred == [P2] && p.others == [P1, P4]
  {
    ScenarioVisible();
    ScenarioPartition();
  }
}

=== FILE: search.dfy ===
/** `useCharacterSearch`: a transient search term mirrored into the URL's
    `name` parameter through a debounce. The 500 ms debounce is a
    `QuietPeriod` event: the moment the debounced value catches up with the term. */
module Search {
  import opened Wrappers
  import opened Params

  /** `searchParams.get("name") || ""`. */
  function NameOf(p: Params): string {
    GetOr(p, "name", "")
  }

  /** The URL-to-term effect's functional update `prev !== name ? name : prev`. */
  function SyncFromUrl(prev: string, p: Params): (t: string)
    ensures t == NameOf(p)
    ensures prev == NameOf(p) ==> t == prev
  {
    var name := NameOf(p);
    if prev != name then name else prev
  }

  /** The term-to-URL effect: None when it does not write; otherwise the new
      parameters, with `name` set (or deleted, for an empty term) and `page` deleted. */
  function CommitName(debounced: string, p: Params): (r: Option<Params>)
    ensures r.None? <==> debounced == NameOf(p)
    ensures r.Some? ==> NameOf(r.value) == debounced
    ensures r.Some? && debounced != "" ==> Get(r.value, "name") == Some(debounced)
    ensures r.Some? && debounced == "" ==> "name" !in r.value
    ensures r.Some? ==> "page" !in r.value
    ensures r.Some? ==> forall k :: k != "name" && k != "page" ==> Get(r.value, k) == Get(p, k)
  {
    if debounced != NameOf(p) then
      Some(Delete(SetOrDelete(p, "name", debounced), "page"))
    else None
  }

  /** After a write, the effect that runs again on the new parameters writes nothing. */
  lemma CommitSettles(debounced: string, p: Params)
    ensures var r := CommitName(debounced, p);
            r.Some? ==> CommitName(debounced, r.value).None?
  {
  }

  // ---------------------------------------------------------------------------
  // The hook over time

  /** The hook's state: the input's term, the debounced term, the URL
      parameters, and a count of URL writes made by the hook. */
  datatype SearchBox = SearchBox(term: string, debounced: string, params: Params, writes: nat)

  datatype Event =
    | Keystroke(text: string)   // `setSearchTerm(text)`
    | QuietPeriod               // the debounce window elapses with no further input
    | Navigate(to: Params)      // the URL changes from outside (back / forward)

  /** Mounting: the term and the debounced term both start from the URL. */
  function Mount(p: Params): (b: SearchBox)
    ensures b.term == NameOf(p) && b.debounced == b.term && b.params == p && b.writes == 0
  {
    SearchBox(NameOf(p), NameOf(p), p, 0)
  }

  /** The term-to-URL effect. A write changes the parameters, on which the
      URL-to-term effect then brings the term in line. */
  function CommitEffect(b: SearchBox): (r: SearchBox)
    ensures r.debounced == b.debounced
    ensures NameOf(r.params) == b.debounced
    ensures r.writes == b.writes + (if b.debounced != NameOf(b.params) then 1 else 0)
    ensures r.term == (if b.debounced != NameOf(b.params) then b.debounced else b.term)
    ensures forall k :: k != "name" && k != "page" ==> Get(r.params, k) == Get(b.params, k)
  {
    match CommitName(b.debounced, b.params)
    case None => b
    case Some(q) => b.(params := q, term := SyncFromUrl(b.term, q), writes := b.writes + 1)
  }

  /** One event, as written: both effects list `searchParams` among their
      dependencies, so an outside URL change also runs the term-to-URL effect:
      whatever the navigation, the URL's `name` and the term end up as the
      debounced term. */
  function Step(b: SearchBox, e: Event): (r: SearchBox)
    ensures e.Keystroke? ==> r == b.(term := e.text)
    ensures e.QuietPeriod? ==> r.debounced == b.term && NameOf(r.params) == b.term
    ensures e.QuietPeriod? ==> forall k :: k != "name" && k != "page" ==> Get(r.params, k) == Get(b.params, k)
    ensures e.Navigate? ==> r.debounced == b.debounced && NameOf(r.params) == b.debounced && r.term == b.debounced
    ensures e.Navigate? ==> r.writes == b.writes + (if b.debounced != NameOf(e.to) then 1 else 0)
    ensures e.Navigate? ==> forall k :: k != "name" && k != "page" ==> Get(r.params, k) == Get(e.to, k)
  {
    match e
    case Keystroke(text) => b.(term := text)
    case QuietPeriod => CommitEffect(b.(debounced := b.term))
    case Navigate(p) => CommitEffect(b.(params := p, term := SyncFromUrl(b.term, p)))
  }

  /** One event with the term-to-URL effect run only when the debounced term
      changes, so an outside URL change only flows into the term. */
  function StepIntended(b: SearchBox, e: Event): (r: SearchBox)
    ensures e.Navigate? ==> r.params == e.to && r.term == NameOf(e.to) && r.writes == b.writes
    ensures e.Keystroke? ==> r == b.(term := e.text)
    ensures e.QuietPeriod? ==> NameOf(r.params) == b.term && r.debounced == b.term
  {
    match e
    case Keystroke(text) => b.(term := text)
    case QuietPeriod => CommitEffect(b.(debounced := b.term))
    case Navigate(p) => b.(params := p, term := SyncFromUrl(b.term, p))
  }

  function Run(b: SearchBox, events: seq<Event>): SearchBox
    decreases |events|
  {
    if |events| == 0 then b else Run(Step(b, events[0]), events[1..])
  }

  function Keystrokes(texts: seq<string>): (es: seq<Event>)
    ensures |es| == |texts|
    ensures forall i :: 0 <= i < |texts| ==> es[i] == Keystroke(texts[i])
  {
    if |texts| == 0 then [] else [Keystroke(texts[0])] + Keystrokes(texts[1..])
  }

  lemma {:induction false} RunAppend(b: SearchBox, a: seq<Event>, c: seq<Event>)
    ensures Run(b, a + c) == Run(Run(b, a), c)
    decreases |a|
  {
    if |a| > 0 {
      assert (a + c)[0] == a[0] && (a + c)[1..] == a[1..] + c;
      RunAppend(Step(b, a[0]), a[1..], c);
    } else {
      assert a + c == c;
    }
  }

  /** Keystrokes only change the term, and the last one wins. */
  lemma {:induction false} RunKeystrokes(b: SearchBox, texts: seq<string>)
    requires |texts| > 0
    ensures Run(b, Keystrokes(texts)) == b.(term := texts[|texts| - 1])
    decreases |texts|
  {
    var es := Keystrokes(texts);
    assert es[1..] == Keystrokes(texts[1..]);
    if |texts| > 1 {
      RunKeystrokes(Step(b, es[0]), texts[1..]);
    }
  }

  /** Debounce coalescing: a burst of keystrokes followed by one quiet period
      writes the URL at most once, and the `name` it leaves is the last keystroke's. */
  lemma Coalescing(b: SearchBox, texts: seq<string>)
    requires |texts| > 0
    ensures var r := Run(b, Keystrokes(texts) + [QuietPeriod]);
            && NameOf(r.params) == texts[|texts| - 1]
            && r.writes == b.writes + (if texts[|texts| - 1] != NameOf(b.params) then 1 else 0)
            && (forall k :: k != "name" && k != "page" ==> Get(r.params, k) == Get(b.params, k))
  {
    RunAppend(b, Keystrokes(texts), [QuietPeriod]);
    RunKeystrokes(b, texts);
    var last := texts[|texts| - 1];
    assert [QuietPeriod][1..] == [];
  }

  /** Back navigation while the debounced term still holds the earlier search:
      the hook as written puts the old `name` back into the URL. */
  lemma NavigationReverted()
    ensures var b := SearchBox("rick", "rick", map["name" := "rick"], 0);
            var r := Step(b, Navigate(map[]));
            r.params == map["name" := "rick"] && r.writes == 1
  {
    var r := Step(SearchBox("rick", "rick", map["name" := "rick"], 0), Navigate(map[]));
    assert NameOf(map[]) == "";
    assert r.params == Delete(SetOrDelete(map[], "name", "rick"), "page");
    assert r.params == map["name" := "rick"];
  }
}

=== FILE: seqs.dfy ===
/** Small facts about sequences shared by the list-processing modules. */
module Seqs {

  /** Concatenation is associative; stated once so that the distribution
      proofs can regroup a head, a middle and a tail. */
  lemma ConcatAssoc<T>(a: seq<T>, b: seq<T>, c: seq<T>)
    ensures a + (b + c) == (a + b) + c
  {
  }
}

=== FILE: sorting.dfy ===
/** The name sort of the view pipeline: `Array.prototype.sort`, which is
    stable, with a comparator chosen by the `sort` parameter. The sort is
    modelled as an insertion sort that places each element after every
    element it does not strictly precede. */
module Sorting {
  import opened Catalog
  import opened Collation
  import Seqs

  /** `"asc"`, `"desc"`, or any other truthy value, whose comparator always returns 0. */
  datatype Order = Asc | Desc | Unordered

  function OrderOf(sortOrder: string): Order {
    if sortOrder == "asc" then Asc
    else if sortOrder == "desc" then Desc
    else Unordered
  }

  /** The comparator is negative: `a` goes strictly before `b`. */
  predicate Before(o: Order, a: Character, b: Character) {
    match o
    case Asc => Lt(NameKey(a), NameKey(b))
    case Desc => Lt(NameKey(b), NameKey(a))
    case Unordered => false
  }

  /** What the comparator looks at: the name, or nothing at all. Two elements
      tie exactly when their keys are equal. */
  function SortKey(o: Order, c: Character): string {
    if o.Unordered? then "" else NameKey(c)
  }

  lemma BeforeAsymmetric(o: Order, a: Character, b: Character)
    ensures Before(o, a, b) ==> !Before(o, b, a)
  {
    LtAsymmetric(NameKey(a), NameKey(b));
  }

  lemma BeforeTransitive(o: Order, a: Character, b: Character, c: Character)
    ensures Before(o, a, b) && Before(o, b, c) ==> Before(o, a, c)
  {
    LtTransitive(NameKey(a), NameKey(b), NameKey(c));
    LtTransitive(NameKey(c), NameKey(b), NameKey(a));
  }

  /** Two elements tie exactly when their sort keys agree. */
  lemma TieIffSameKey(o: Order, a: Character, b: Character)
    ensures SortKey(o, a) == SortKey(o, b) <==> !Before(o, a, b) && !Before(o, b, a)
  {
    LtTotal(NameKey(a), NameKey(b));
    LtIrreflexive(NameKey(a));
  }

  /** No element goes strictly before an earlier one. */
  predicate Sorted(o: Order, s: seq<Character>) {
    forall i, j :: 0 <= i < j < |s| ==> !Before(o, s[j], s[i])
  }

  function Insert(o: Order, x: Character, s: seq<Character>): (r: seq<Character>)
    requires Sorted(o, s)
    ensures multiset(r) == multiset(s) + multiset{x}
    ensures Sorted(o, r)
    decreases |s|
  {
    if |s| == 0 then [x]
    else if Before(o, x, s[0]) then
      PrependSorted(o, x, s);
      [x] + s
    else
      SortedTail(o, s);
      var rest := Insert(o, x, s[1..]);
      HeadStaysFirst(o, x, s, rest);
      ConsSorted(o, s[0], rest);
      assert s == [s[0]] + s[1..];
      assert multiset([s[0]] + rest) == multiset{s[0]} + multiset(rest);
      [s[0]] + rest
  }

  /** Nothing in the tail of a sorted sequence, nor an `x` that does not go
      before its head, goes strictly before that head. */
  lemma HeadStaysFirst(o: Order, x: Character, s: seq<Character>, rest: seq<Character>)
    requires Sorted(o, s) && |s| > 0 && !Before(o, x, s[0])
    requires multiset(rest) == multiset(s[1..]) + multiset{x}
    ensures forall y :: y in multiset(rest) ==> !Before(o, y, s[0])
  {
    forall y | y in multiset(rest) ensures !Before(o, y, s[0]) {
      if y != x {
        assert y in multiset(s[1..]);
        var j :| 0 <= j < |s[1..]| && s[1..][j] == y;
        assert s[j + 1] == y;
      }
    }
  }

  /** An element strictly before the head of a sorted sequence may go in front. */
  lemma PrependSorted(o: Order, x: Character, s: seq<Character>)
    requires Sorted(o, s) && |s| > 0 && Before(o, x, s[0])
    ensures Sorted(o, [x] + s)
  {
    forall j | 0 <= j < |s| ensures !Before(o, s[j], x) {
      BeforeAsymmetric(o, x, s[0]);
      BeforeTransitive(o, s[j], x, s[0]);
    }
  }

  /** A head that nothing in a sorted tail goes strictly before keeps it sorted. */
  lemma ConsSorted(o: Order, h: Character, rest: seq<Character>)
    requires Sorted(o, rest)
    requires forall y :: y in multiset(rest) ==> !Before(o, y, h)
    ensures Sorted(o, [h] + rest)
  {
    forall j | 0 <= j < |rest| ensures !Before(o, rest[j], h) {
      assert rest[j] in multiset(rest);
    }
  }

  /** The stable sort: inserts the elements one by one, in input order. */
  function Sort(o: Order, s: seq<Character>): (r: seq<Character>)
    ensures multiset(r) == multiset(s)
    ensures Sorted(o, r)
    decreases |s|
  {
    if |s| == 0 then []
    else
      assert s == s[..|s| - 1] + [s[|s| - 1]];
      Insert(o, s[|s| - 1], Sort(o, s[..|s| - 1]))
  }

  /** The elements whose sort key is `k`, in order. */
  function WithKey(o: Order, s: seq<Character>, k: string): seq<Character> {
    if |s| == 0 then []
    else (if SortKey(o, s[0]) == k then [s[0]] else []) + WithKey(o, s[1..], k)
  }

  lemma {:induction false} WithKeyAppend(o: Order, a: seq<Character>, b: seq<Character>, k: string)
    ensures WithKey(o, a + b, k) == WithKey(o, a, k) + WithKey(o, b, k)
    decreases |a|
  {
    if |a| > 0 {
      assert (a + b)[0] == a[0] && (a + b)[1..] == a[1..] + b;
      WithKeyAppend(o, a[1..], b, k);
      var h := if SortKey(o, a[0]) == k then [a[0]] else [];
      assert h + (WithKey(o, a[1..], k) + WithKey(o, b, k)) == (h + WithKey(o, a[1..], k)) + WithKey(o, b, k);
    } else {
      assert a + b == b;
    }
  }

  /** Inserting `x` puts it after every element of its own key. */
  lemma {:induction false} InsertStable(o: Order, x: Character, s: seq<Character>, k: string)
    requires Sorted(o, s)
    ensures WithKey(o, Insert(o, x, s), k) == WithKey(o, s, k) + WithKey(o, [x], k)
    decreases |s|
  {
    if |s| == 0 {
      assert Insert(o, x, s) == [x];
      assert WithKey(o, s, k) == [];
    } else if Before(o, x, s[0]) {
      InsertStableFront(o, x, s, k);
    } else {
      SortedTail(o, s);
      InsertStable(o, x, s[1..], k);
      InsertStableSkip(o, x, s, k);
    }
  }

  lemma SortedTail(o: Order, s: seq<Character>)
    requires Sorted(o, s) && |s| > 0
    ensures Sorted(o, s[1..])
  {
    forall i, j | 0 <= i < j < |s| - 1 ensures !Before(o, s[1..][j], s[1..][i]) {
      assert s[1..][j] == s[j + 1] && s[1..][i] == s[i + 1];
    }
  }

  lemma InsertStableFront(o: Order, x: Character, s: seq<Character>, k: string)
    requires Sorted(o, s) && |s| > 0 && Before(o, x, s[0])
    ensures WithKey(o, Insert(o, x, s), k) == WithKey(o, s, k) + WithKey(o, [x], k)
  {
    assert Insert(o, x, s) == [x] + s;
    WithKeyAppend(o, [x], s, k);
    var wx, ws := WithKey(o, [x], k), WithKey(o, s, k);
    if SortKey(o, x) == k {
      NoneWithKey(o, s, k, x);
      assert wx + ws == wx && ws + wx == wx;
    } else {
      WithKeyEmpty(o, [x], k);
      assert wx + ws == ws && ws + wx == ws;
    }
  }

  lemma InsertStableSkip(o: Order, x: Character, s: seq<Character>, k: string)
    requires Sorted(o, s) && |s| > 0 && !Before(o, x, s[0])
    requires WithKey(o, Insert(o, x, s[1..]), k) == WithKey(o, s[1..], k) + WithKey(o, [x], k)
    ensures WithKey(o, Insert(o, x, s), k) == WithKey(o, s, k) + WithKey(o, [x], k)
  {
    var rest := Insert(o, x, s[1..]);
    var r := Insert(o, x, s);
    assert r == [s[0]] + rest;
    assert r[0] == s[0] && r[1..] == rest;
    var h := if SortKey(o, s[0]) == k then [s[0]] else [];
    assert WithKey(o, r, k) == h + WithKey(o, rest, k);
    assert WithKey(o, s, k) == h + WithKey(o, s[1..], k);
    Seqs.ConcatAssoc(h, WithKey(o, s[1..], k), WithKey(o, [x], k));
  }


  /** In a sorted sequence headed by an element that `x` strictly precedes,
      nothing shares `x`'s key. */
  lemma {:induction false} NoneWithKey(o: Order, s: seq<Character>, k: string, x: Character)
    requires Sorted(o, s) && |s| > 0 && Before(o, x, s[0]) && SortKey(o, x) == k
    ensures WithKey(o, s, k) == []
  {
    forall j | 0 <= j < |s| ensures SortKey(o, s[j]) != k {
      TieIffSameKey(o, x, s[j]);
      BeforeTransitive(o, s[j], x, s[0]);
      TieIffSameKey(o, s[0], s[0]);
    }
    WithKeyEmpty(o, s, k);
  }

  lemma {:induction false} WithKeyEmpty(o: Order, s: seq<Character>, k: string)
    requires forall j :: 0 <= j < |s| ==> SortKey(o, s[j]) != k
    ensures WithKey(o, s, k) == []
    decreases |s|
  {
    if |s| > 0 {
      WithKeyEmpty(o, s[1..], k);
    }
  }

  /** Stability: for every key, the elements with that key come out in the
      order they went in. */
  lemma {:induction false} SortStable(o: Order, s: seq<Character>, k: string)
    ensures WithKey(o, Sort(o, s), k) == WithKey(o, s, k)
    decreases |s|
  {
    if |s| > 0 {
      SortStable(o, s[..|s| - 1], k);
      SortStableStep(o, s, k);
    }
  }

  /** Sorting one more element: stability of the prefix carries over. */
  lemma SortStableStep(o: Order, s: seq<Character>, k: string)
    requires |s| > 0
    requires WithKey(o, Sort(o, s[..|s| - 1]), k) == WithKey(o, s[..|s| - 1], k)
    ensures WithKey(o, Sort(o, s), k) == WithKey(o, s, k)
  {
    var sorted := Sort(o, s[..|s| - 1]);
    InsertStable(o, s[|s| - 1], sorted, k);
    WithKeySnoc(o, s, k);
  }

  /** Splitting off the last element. */
  lemma WithKeySnoc(o: Order, s: seq<Character>, k: string)
    requires |s| > 0
    ensures WithKey(o, s, k) == WithKey(o, s[..|s| - 1], k) + WithKey(o, [s[|s| - 1]], k)
  {
    var init, last := s[..|s| - 1], s[|s| - 1];
    SnocSplit(s);
    WithKeyAppend(o, init, [last], k);
  }

  lemma ConsSplit(s: seq<Character>)
    requires |s| > 0
    ensures s == [s[0]] + s[1..]
  {
  }

  lemma SnocSplit(s: seq<Character>)
    requires |s| > 0
    ensures s == s[..|s| - 1] + [s[|s| - 1]]
  {
  }

  /** Every element of a sequence has the same key under `Unordered`, so
      filtering by that key gives the whole sequence. */
  lemma {:induction false} WithKeyUnordered(s: seq<Character>)
    ensures WithKey(Unordered, s, "") == s
    decreases |s|
  {
    if |s| > 0 {
      WithKeyUnordered(s[1..]);
      ConsSplit(s);
    }
  }

  /** A comparator that always returns 0 leaves the order as it was. */
  lemma UnorderedKeepsOrder(s: seq<Character>)
    ensures Sort(Unordered, s) == s
  {
    SortStable(Unordered, s, "");
    WithKeyUnordered(s);
    WithKeyUnordered(Sort(Unordered, s));
  }

  /** Ascending output is non-decreasing by name. */
  lemma AscNonDecreasing(s: seq<Character>)
    ensures var r := Sort(Asc, s);
            forall i, j :: 0 <= i < j < |r| ==> NameKey(r[i]) == NameKey(r[j]) || Lt(NameKey(r[i]), NameKey(r[j]))
  {
    forall a: string, b: string ensures !Lt(b, a) ==> a == b || Lt(a, b) {
      LtTotal(a, b);
    }
  }

  /** Descending output is non-increasing by name. */
  lemma DescNonIncreasing(s: seq<Character>)
    ensures var r := Sort(Desc, s);
            forall i, j :: 0 <= i < j < |r| ==> NameKey(r[i]) == NameKey(r[j]) || Lt(NameKey(r[j]), NameKey(r[i]))
  {
    forall a: string, b: string ensures !Lt(a, b) ==> a == b || Lt(b, a) {
      LtTotal(a, b);
    }
  }
}

=== FILE: text.dfy ===
/** JavaScript's `String.prototype.trim`, used by the comment form guards. */
module Text {

  /** The code points `trim` removes: ECMAScript's WhiteSpace and
      LineTerminator productions. */
  predicate IsWhiteSpace(c: char) {
    || c == '\t' || c == '\n' || c == '\U{000B}' || c == '\U{000C}' || c == '\r'
    || c == ' ' || c == '\U{00A0}' || c == '\U{1680}'
    || (0x2000 <= c as int <= 0x200A)
    || c == '\U{2028}' || c == '\U{2029}' || c == '\U{202F}' || c == '\U{205F}'
    || c == '\U{3000}' || c == '\U{FEFF}'
  }

  predicate AllWhiteSpace(s: string) {
    forall i :: 0 <= i < |s| ==> IsWhiteSpace(s[i])
  }

  /** Prefixing white space to an all-white-space string keeps it so. */
  lemma WhiteSpaceCons(c: char, s: string)
    requires IsWhiteSpace(c) && AllWhiteSpace(s)
    ensures AllWhiteSpace([c] + s)
  {
    forall i | 0 <= i < |[c] + s| ensures IsWhiteSpace(([c] + s)[i]) {
      if i > 0 { assert ([c] + s)[i] == s[i - 1]; }
    }
  }

  /** The length of the leading white space. */
  function Leading(s: string): (n: nat)
    ensures n <= |s| && AllWhiteSpace(s[..n])
    ensures n == |s| || !IsWhiteSpace(s[n])
  {
    if |s| > 0 && IsWhiteSpace(s[0]) then
      var m := Leading(s[1..]);
      WhiteSpaceCons(s[0], s[1..][..m]);
      assert s[..m + 1] == [s[0]] + s[1..][..m];
      m + 1
    else 0
  }

  /** Drops leading white space. */
  function TrimStart(s: string): (r: string)
    ensures |r| <= |s| && r == s[|s| - |r|..]
    ensures AllWhiteSpace(s[..|s| - |r|])
    ensures r == [] || !IsWhiteSpace(r[0])
  {
    s[Leading(s)..]
  }

  /** Appending white space to an all-white-space string keeps it so. */
  lemma WhiteSpaceSnoc(s: string, c: char)
    requires AllWhiteSpace(s) && IsWhiteSpace(c)
    ensures AllWhiteSpace(s + [c])
  {
    forall i | 0 <= i < |s + [c]| ensures IsWhiteSpace((s + [c])[i]) {
      if i < |s| { assert (s + [c])[i] == s[i]; }
    }
  }

  /** The length of the trailing white space. */
  function Trailing(s: string): (n: nat)
    ensures n <= |s| && AllWhiteSpace(s[|s| - n..])
    ensures n == |s| || !IsWhiteSpace(s[|s| - n - 1])
  {
    if |s| > 0 && IsWhiteSpace(s[|s| - 1]) then
      var init := s[..|s| - 1];
      var m := Trailing(init);
      WhiteSpaceSnoc(init[|init| - m..], s[|s| - 1]);
      assert s[|s| - (m + 1)..] == init[|init| - m..] + [s[|s| - 1]];
      m + 1
    else 0
  }

  /** Drops trailing white space. */
  function TrimEnd(s: string): (r: string)
    ensures |r| <= |s| && r == s[..|r|]
    ensures AllWhiteSpace(s[|r|..])
    ensures r == [] || !IsWhiteSpace(r[|r| - 1])
  {
    s[..|s| - Trailing(s)]
  }

  /** `s.trim()`: the slice of `s` left once white space is cut from both ends. */
  function Trim(s: string): (r: string)
    ensures exists i, j ::
              && 0 <= i <= j <= |s| && r == s[i..j]
              && AllWhiteSpace(s[..i]) && AllWhiteSpace(s[j..])
    ensures r == [] || (!IsWhiteSpace(r[0]) && !IsWhiteSpace(r[|r| - 1]))
  {
    var t := TrimStart(s);
    var r := TrimEnd(t);
    var i := |s| - |t|;
    assert r == s[i..i + |r|];
    assert s[i + |r|..] == t[|r|..];
    r
  }

  /** The trimmed text is empty exactly when the input is all white space:
      the condition under which the comment form refuses to post. */
  lemma TrimEmptyIff(s: string)
    ensures Trim(s) == [] <==> AllWhiteSpace(s)
  {
    var n := Leading(s);
    var t := TrimStart(s);
    assert t == s[n..];
    if AllWhiteSpace(s) {
      assert t == [];
    }
    if Trim(s) == [] {
      assert t[0..] == t;
      assert s[..n] == s;
    }
  }

  /** Trimming twice is trimming once. */
  lemma TrimIdempotent(s: string)
    ensures Trim(Trim(s)) == Trim(s)
  {
    var t := Trim(s);
    if t != [] {
      assert TrimStart(t) == t;
      assert TrimEnd(t) == t;
    }
  }
}

=== FILE: welcome.dfy ===
/** `useWelcomeModal`: an open/closed flag whose dismissal is remembered in
    local storage. The storage key's value comes from a constants file that is
    not part of this model, so it is a parameter here. */
module WelcomeModal {
  import opened Wrappers
  import Persistence

  datatype Welcome = Welcome(isOpen: bool, storage: Persistence.Storage)

  /** `!localStorage.getItem(key)`: no entry, or an empty one. */
  predicate Unseen(storage: Persistence.Storage, key: string) {
    Persistence.GetItem(storage, key).None? || Persistence.GetItem(storage, key) == Some("")
  }

  /** The lazy initial state: closed without a window, otherwise open exactly
      when the dismissal flag is not set. */
  function Init(hasWindow: bool, storage: Persistence.Storage, key: string): (w: Welcome)
    ensures w.isOpen <==> hasWindow && (key !in storage || storage[key] == "")
    ensures w.storage == storage
  {
    Welcome(hasWindow && Unseen(storage, key), storage)
  }

  /** `closeModal`: stores "true" under the key and closes. */
  function Close(w: Welcome, key: string): (r: Welcome)
    ensures !r.isOpen
    ensures Persistence.GetItem(r.storage, key) == Some("true")
    ensures forall k :: k != key ==> Persistence.GetItem(r.storage, k) == Persistence.GetItem(w.storage, k)
  {
    Welcome(false, w.storage[key := "true"])
  }

  /** `openModal`: opens without touching storage. */
  function Open(w: Welcome): (r: Welcome)
    ensures r.isOpen && r.storage == w.storage
  {
    w.(isOpen := true)
  }

  /** Once dismissed, the modal starts closed on every later load, whatever
      happened in between with `openModal`. */
  lemma DismissalRemembered(w: Welcome, key: string, reopened: bool, hasWindow: bool)
    ensures var closed := Close(w, key);
            var later := if reopened then Open(closed) else closed;
            !Init(hasWindow, later.storage, key).isOpen
  {
  }

  /** A first visit (window present, empty storage) opens the modal. */
  lemma FirstVisitOpens(key: string)
    ensures Init(true, map[], key).isOpen
  {
  }
}

=== FILE: wrappers.dfy ===
/** Option and Result values standing in for JavaScript's `null`/`undefined`
    and for thrown exceptions. */
module Wrappers {

  datatype Option<+T> = None | Some(value: T) {

    /** Returns the value held in Some, or `default` for None (JavaScript's `x ?? default`). */
    function GetOr(default: T): T {
      match this
      case Some(v) => v
      case None => default
    }
  }

  /** The outcome of a computation that may throw. */
  datatype Result<+R, +E> = Success(value: R) | Failure(error: E)
}
